=== FILE: README.md ===
# A Dafny model of the Secure Kernel Loader's launch-time logic

The Secure Kernel Loader (SKL) runs right after an AMD SKINIT dynamic launch. It receives a Secure Launch Resource Table (SLRT) from the bootloader. It sets up a TPM event log, checks the dynamic-launch (DL_INFO) entry, and jumps into the dynamically launched kernel (the DLME). On the AMDSL build it also drives the PSP's DRTM mailbox. A small Python tool, `header_tool.py`, patches the PSP header of the loader image.

This project models five pieces of that logic as pure Dafny functions over byte and word sequences, and proves what each piece promises:

- `header_tool.dfy` (module `HeaderTool`): the image patcher.
  - It loads the image as little-endian 32-bit words.
  - It rounds the signed length in the top half of word 0 up to 16 and re-encodes word 0.
  - It writes the magic, size, version and security patch level at fixed word offsets past the aligned length.
  - Every Python exception is a `Result` error, raised before the output file is opened.
- `slrt.dfy` (module `Slrt`): `end_of_slrt`, `next_entry` and `next_entry_with_tag`.
  - Memory is the bytes from `&bootloader_data` on, and entries are named by their offset.
  - A read past the modelled bytes, an entry of size 0 that sends the walk round forever, and the walker's NULL dereference (see Findings) are explicit outcomes, not preconditions.
- `event_log.dfy` (module `EventLog`): `log_write`, `log_event_tpm12`, `log_event_tpm20` and `event_log_init`.
  - The three statics are a `Log` record: the buffer, plus `ptr_current` and `limit` as offsets from `evtlog_base`.
  - The TPM 1.2 running offset `next_event_offset` and the TPM 2.0 running offset `next_record_offset` are shown to track the cursor.
- `launch.dfy` (module `Launch`): the DL_INFO acceptance check and the `(entry, arg)` hand-off of `skl_main` and `amdsl_launch`.
- `psp.dfy` (module `Psp`): the PSP device table, the BAR mask, the mailbox layout, the bounded ready-poll, and the three mailbox commands.
  - Volatile reads of C2PMSG_72 are an input stream `reg: nat -> u32`.
  - Register writes are returned in program order.

`bytes.dfy` (module `Bytes`) holds the little-endian codec shared by all of them, and `results.dfy` (module `Results`) holds `Option` and `Result`.

Word 0 keeps only its low 8 bits when it is realigned (`& 0xFF`, not `& 0xFFFF`), so bits 8-15 are lost. The model keeps this literally, because the intended header format cannot be recovered from the source.

## Model

| member | source | states |
|---|---|---|
| HeaderTool.ToWords | header_tool.py:59-62 | word i of the `array('I')` view is the little-endian value of bytes 4i..4i+4 |
| HeaderTool.ToWordsFromWords | header_tool.py:62 | loading the bytes of a word array gives back the same words |
| HeaderTool.FromWordsToWords | header_tool.py:87 | writing the words of a loaded image gives back the same bytes |
| HeaderTool.FromWords | header_tool.py:87 | the bytes written hold every word as its 4-byte little-endian encoding, in order |
| HeaderTool.Load | header_tool.py:59-62 | loading fails exactly when the length is not a multiple of 4; on success the words encode the input bytes |
| HeaderTool.SignedLength | header_tool.py:63-64 | the signed length is the top 16 bits of word 0 |
| HeaderTool.AlignUp16 | header_tool.py:66-67 | the aligned length is a multiple of 16 in [raw, raw + 16), i.e. the least multiple of 16 not below raw |
| HeaderTool.ReencodeWord0 | header_tool.py:68-69 | the re-encoded word 0 keeps the low byte, has bits 8-15 clear, and holds the aligned length in its top bits |
| HeaderTool.Store | header_tool.py:77-81 | an element assignment succeeds iff the index is inside the array and the value is a u32; an index error is reported first; only that element changes |
| HeaderTool.WriteHeader | header_tool.py:77-81 | the four stores succeed iff the last header word is inside the image and the size, version and patch level are u32 values; a magic word past the end is the index error raised; on success the four words hold magic, size, version and patch level and no other word changes |
| HeaderTool.PatchWords | header_tool.py:63-81 | an empty image fails; a patched image has the aligned length in word 0, keeps word 0 when already aligned, carries magic, size, patch level and version at base+4, +5, +19 and +24, and changes no other word |
| HeaderTool.Patch | header_tool.py:59-87 | a ragged or empty input fails with no output; the output has the input's length and its words are the input's words in patched layout (aligned word 0, the four header words, every other word kept); the size message is reported iff the input is not 64 KiB |
| HeaderTool.PatchWordsSucceedsIff | header_tool.py:63-81 | the patch succeeds iff the aligned length fits 16 bits, the last header word is inside the image, and version and patch level are u32 values; an aligned length of 0x10000 overflows word 0 |
| HeaderTool.PatchSucceedsIff | header_tool.py:59-81 | the same conditions stated on the input bytes, with the load failure included |
| HeaderTool.WriteHeaderFixedPoint | header_tool.py:77-81 | the four header writes change nothing on an image that already carries those values |
| HeaderTool.PatchWordsFixedPoint | header_tool.py:66-81 | an image in patched layout is a fixed point of the word-level patch |
| HeaderTool.PatchIdempotent | header_tool.py:59-87 | running the tool on its own output with the same version and patch level reproduces that output |
| Slrt.NextEntry | include/slrt.h:88-97 | the next entry is `size` bytes on and is returned only when strictly before the table's end (base plus its `size` field); otherwise NULL |
| Slrt.EndOfSlrtField | include/slrt.h:88-91 | the table end is a u32 whose little-endian bytes are the `size` field at bytes 8..12 of the table |
| Slrt.Scan | include/slrt.h:108-114 | an END entry ends the walk with NULL; a found entry carries the tag and lies in [t, end); it equals t only for a size-0 entry; only the as-written walker reads through NULL |
| Slrt.Search | include/slrt.h:99-115 | with a NULL start entries[0] is tested first; a result carries the tag and starts before the end; with a start t a result lies after t except for a size-0 entry |
| Slrt.NextEntryWithTag | include/slrt.h:99-115 | the lookup with a NULL check after `next_entry` never dereferences NULL |
| Slrt.NextEntryWithTagAsWritten | include/slrt.h:99-115 | the lookup as written answers what the corrected lookup answers, except that it reads through NULL where the corrected one answers NULL |
| Slrt.ScanFindsFirst | include/slrt.h:108-113 | a found entry is the first entry along the chain from t that carries the tag |
| Slrt.ScanNullMeansAbsent | include/slrt.h:108-114 | a NULL answer means no entry reachable from t carries the tag |
| Slrt.ScanVariantsAgree | include/slrt.h:108-114 | the as-written and corrected walkers agree, except as-written reads NULL where corrected answers NULL |
| Slrt.SearchVariantsAgree | include/slrt.h:99-115 | the same agreement for the full lookup |
| Slrt.UnterminatedReadsNull | include/slrt.h:102-111 | whenever entries[0] is neither the tag sought nor END and the step after it leaves the table, the as-written lookup reads through NULL and the corrected one answers NULL |
| Slrt.AsWrittenReadsNull | include/slrt.h:110-111 | a 20-byte table with one DL_INFO entry and no END marker makes the as-written lookup for LOG_INFO read through NULL, while the corrected one answers NULL |
| EventLog.CString | event_log.c:133-154 | a `char[n]` initialised from a literal holds its characters, then zeros |
| EventLog.IdStructLayout | event_log.c:132-167 | the id structures are 73 and 57 bytes; their running offsets start at 48 (from the TPM 1.2 header at byte 57) and 89, both the end of the header event |
| EventLog.Tpm12EventFields | event_log.c:107-113 | a TPM 1.2 record decodes to its PCR, event type, SHA-1 digest and event size |
| EventLog.Tpm20EventFields | event_log.c:115-130 | a TPM 2.0 record decodes to PCR, type, digest count 2, SHA-1 id 0x0004 and digest, SHA-256 id 0x000B and digest, and event size |
| EventLog.ReadLogInfoFields | include/slrt.h:77-83 | `format`, `size` and `addr` are the little-endian values of the bytes at offsets 4, 12 and 16 of the packed entry |
| EventLog.LogWrite | event_log.c:33-41 | a write fails, changing nothing, iff `size >= limit - ptr_current`; otherwise it copies exactly the data at the cursor, advances it by its size, keeps the cursor strictly below limit and changes no other byte |
| EventLog.EventSize | event_log.c:175 | the event size is the string length truncated to 32 bits |
| EventLog.Append | event_log.c:182-184 | once the space check has passed, patching the offset field and both writes succeed and the cursor advances by record plus text |
| EventLog.AppendLays | event_log.c:182-184 | after the append the offset field holds the new value, the record and the text sit at the old cursor, and every other byte is unchanged |
| EventLog.LogEvent | event_log.c:169-214 | an event succeeds iff `limit - ptr_current` exceeds the record size plus the event size; otherwise nothing changes; on success the cursor advances by both and stays below limit |
| EventLog.LogEventOffset | event_log.c:177-182 | a running offset that counts from its origin to the cursor keeps doing so after an event |
| EventLog.LogEventLays | event_log.c:183-184 | the record lands at the old cursor and the text right after it |
| EventLog.LogEventFrame | event_log.c:182-184 | an event changes no byte outside its record, its text and the offset field |
| EventLog.LogEventTpm12 | event_log.c:169-188 | the event succeeds iff `limit - ptr_current > 32 + event_size`; otherwise nothing changes; on success the cursor advances by 32 + event_size |
| EventLog.LogEventTpm20 | event_log.c:190-214 | the event succeeds iff `limit - ptr_current > 72 + event_size`; otherwise nothing changes; on success the cursor advances by 72 + event_size |
| EventLog.Tpm12EventAppends | event_log.c:177-184 | a successful TPM 1.2 event keeps `next_event_offset == ptr_current - &hdr`, lays the record and text at the old end, and changes no other byte |
| EventLog.Tpm20EventAppends | event_log.c:199-210 | a successful TPM 2.0 event keeps `next_record_offset == ptr_current - evtlog_base`, lays the record (type 0x502) and text at the old end, and changes no other byte |
| EventLog.PoisonedRejectsAll | event_log.c:31-36 | with `limit == ptr_current` every write and every event of either format fails and leaves the log as it was |
| EventLog.MinSize | event_log.c:227-238 | the minimum buffer is 169 bytes for TPM 1.2 and 233 for TPM 2.0 |
| EventLog.WriteHeaders | event_log.c:263-295 | after wiping and the header writes the log is valid, spans the whole buffer and has its cursor just past the header event |
| EventLog.HeadedTpm12 | event_log.c:270-288 | after the TPM 1.2 id structure is written the header event is at the start and `next_event_offset` holds 48 |
| EventLog.HeadedTpm20 | event_log.c:270-292 | after the TPM 2.0 id structure is written the header event is at the start and `next_record_offset` holds 89 |
| EventLog.WriteHeadersTpm12 | event_log.c:270-289 | the TPM 1.2 header is the EV_NO_ACTION event, container_size equals the buffer size, and `next_event_offset` points at the cursor |
| EventLog.WriteHeadersTpm20 | event_log.c:270-295 | the TPM 2.0 header is the EV_NO_ACTION event, the pointer element holds the buffer size and physical address, and `next_record_offset` points at the cursor |
| EventLog.WrapCheck | event_log.c:248-253 | `ptr_current > limit` with a 64-bit limit holds exactly when the buffer runs past 2^64 |
| EventLog.CheckBuffer | event_log.c:245-268 | the buffer checks pass iff the size reaches the minimum, the buffer does not run past 2^64, it lies wholly below or above the loader image, and the format matches; every failure leaves a poisoned log |
| EventLog.InitChecks | event_log.c:222-268 | with the walker as written or corrected, the checks pass iff LOG_INFO exists and does not recur after itself, the family is 1.2 or 2.0, the size reaches the minimum, the buffer does not wrap, lies wholly below or above the loader image, and has the family's format; a failure leaves a poisoned log; only the walker as written reads through NULL |
| EventLog.InitWrite | event_log.c:270-309 | once the checks pass, writing the header and the SKINIT event always succeeds |
| EventLog.EventLogInit | event_log.c:216-314 | with the walker as written or corrected, event_log_init returns 0 iff the checks pass; any failure returns 1 and leaves `limit == ptr_current`; only the walker as written can crash on NULL |
| EventLog.EventLogInitFailureBlocks | event_log.c:311-314 | after a failed init every later write and event fails |
| EventLog.SkinitKeepsHeader12 | event_log.c:297-301 | on a fresh TPM 1.2 log the SKINIT event succeeds and leaves the header event and container_size as they were |
| EventLog.SkinitKeepsHeader20 | event_log.c:297-308 | on a fresh TPM 2.0 log the SKINIT event succeeds and leaves the header event and the pointer element as they were |
| EventLog.InitWriteTpm12 | event_log.c:270-301 | a successful TPM 1.2 init leaves the header event, container_size equal to the buffer size, and `next_event_offset` tracking the cursor |
| EventLog.InitEventTpm12 | event_log.c:297-301 | a successful TPM 1.2 init logs the SKINIT record (PCR 17, type 0x502, text "SKINIT") right after the header |
| EventLog.InitWriteTpm20 | event_log.c:270-308 | a successful TPM 2.0 init leaves the header event, the buffer's size and address in the pointer element, and `next_record_offset` tracking the cursor |
| EventLog.InitEventTpm20 | event_log.c:297-308 | a successful TPM 2.0 init logs the two-digest SKINIT record right after the header |
| EventLog.EventLogInitUnique | event_log.c:222-261 | when the checks pass, init returns 0 with the log InitWrite builds, the LOG_INFO entry used is the only one on the walk from it, and the buffer lies clear of the loader image |
| EventLog.EventLogInitVariantsDiffer | event_log.c:222-225 | event_log_init as written and as corrected give the same result unless the written one crashes on NULL in a lookup |
| EventLog.LastLogInfoCrashes | event_log.c:224 | when the only LOG_INFO entry is the last one reachable and no END follows it, event_log_init as written crashes on NULL in its second lookup, where the corrected lookup answers NULL |
| Launch.AcceptedImageBelow4G | main.c:352-354 | under the intended check the entry lies inside the image, the image ends below 4 GiB, the 64-bit entry sum does not wrap, and the u32 measurements see the whole size and the exact entry offset |
| Launch.WrappedSizeAccepted | main.c:353 | the check as written accepts base 0x1000, size 0xFFFFFFFFFFFFF010, entry 0x100000000, which the intended check rejects and whose entry lies above 4 GiB; the u32 entry offset skl_main measures is 0 and the u32 length is 0xFFFFF010 |
| Launch.ChecksWithoutModulus | main.c:352-355 | the written check passes a true sum base + size below 4 GiB or in [2^64, 2^64 + 4 GiB); the intended check is the written one on sums that do not wrap |
| Launch.ReadDlInfoFields | include/slrt.h:63-72 | `dlme_size`, `dlme_base`, `dlme_entry`, `bootloader` and `context` are the little-endian values of the bytes at offsets 16, 24, 32, 40 and 48 of the packed entry |
| Launch.AcceptsAgreeWithoutWrap | main.c:352-355 | the written and intended checks differ only when base + size reaches 2^64 |
| Launch.CheckDlInfo | main.c:347-359 | an accepted entry is the DL_INFO entry the lookup found, has header size 64, ends within the table, and passes the field checks |
| Launch.CheckDlInfoRejectsIff | main.c:347-359 | the launch reboots iff there is no DL_INFO entry, its size is not 64, it runs past the table's end, or a field check fails; every entry passing all of them is accepted |
| Launch.HandOff | main.c:347-370 | from the DL_INFO lookup on, the loader jumps iff the check accepts, and reboots iff it rejects |
| Launch.SklMain | main.c:337-370 | skl_main jumps iff event_log_init returns (whatever its status) and the DL_INFO check accepts, and then jumps where the hand-off does; it reboots iff event_log_init returns and the check rejects; a NULL read anywhere happens only as written |
| Launch.SklMainJumpsIntoImage | main.c:337-370 | under the corrected walker and check, once event_log_init has returned, skl_main jumps to `dlme_base + dlme_entry`, inside the image and below 4 GiB, with the bootloader context as argument, after measuring the whole image and the exact entry offset |
| Launch.MeasuredLength | main.c:44-47 | `extend_pcr` hashes `dlme_size` truncated to its u32 `size` parameter: never more than the size, and all of it when the size fits 32 bits |
| Launch.MeasuredEntryOffset | main.c:361-363 | the u32 `entry_offset` skl_main hashes is `dlme_entry` truncated to 32 bits: never more than it, and all of it when it fits |
| Launch.SklMainAsWrittenJump | main.c:337-370 | once event_log_init as written has returned, skl_main as written jumps with the context as argument; without a wrap the entry is inside the image below 4 GiB; with one the size is at least 2^64 - 2^32, so only `dlme_size mod 2^32` bytes are measured, a hashed range that reaches 4 GiB; the jump then follows only if reads at or above 4 GiB do not fault, which the model assumes |
| Launch.WrappedMeasurementReaches4G | main.c:352-363 | on an entry accepted only because base + size wrapped, the range `extend_pcr` hashes ends 4 GiB past the wrapped sum, so it always reaches 4 GiB |
| Launch.HandOffVariantsDiffer | main.c:347-370 | the as-written and corrected hand-offs differ only on a NULL read in the walk or a wrapping size |
| Launch.AmdslLaunch | main.c:255-308 | with the walker and check as written or corrected, amdsl_launch returns exactly what skl_main's hand-off returns under the same variant, whatever the PSP answers, and talks to the PSP only after acceptance |
| Launch.AmdslExtendsAcceptedImage | main.c:282-290 | under the corrected check, on an accepted image the extension is never refused for size; its result is the mailbox outcome, and with a ready mailbox the PSP sees the launch word and then the four-word extension |
| Launch.AmdslWrappedSizeStillJumps | main.c:282-292 | amdsl_launch as written, on an image accepted only because base + size wrapped, has its extension refused for size before any extension write; the modelled outcome is still the jump, assuming the hexdump of the entry before the return (main.c:297) does not fault |
| Psp.FirstMatch | psp.c:146-152 | the index of the first table entry matching both ids, or the table length |
| Psp.IsDrtmDevice | psp.c:139-160 | the search returns the first matching entry unless it is PSP_NONE; a result matches both ids and has a real version |
| Psp.DrtmDevices | psp.c:66-75 | exactly vendor 0x1022 with device 0x1456, 0x1486, 0x15DF, 0x1649 or 0x14CA is recognised |
| Psp.DrtmDeviceVersions | psp.c:66-75 | a recognised device reports V1 for 0x1456, V2 for 0x1486 and 0x1649, and V3 for 0x15DF and 0x14CA |
| Psp.PspBarAddr | psp.c:174-182 | the BAR is the 1 MiB-aligned address at or just below the SMN value |
| Psp.InitDrtmInterface | psp.c:222-244 | the interface is set up iff the PSP is V2 or V3 |
| Psp.BarMailboxesExact | psp.c:226-233 | from a BAR base the 32-bit casts lose nothing: C2PMSG_72 is at base + 0x10a20, the argument registers are consecutive words from base + 0x10a74, all within 1 MiB of the base |
| Psp.DiscoverPsp | psp.c:202-219 | a device yields mailboxes iff it is a V2 or V3 PSP and the masked BAR is non-zero |
| Psp.Status | psp.c:266-268 | the status is the low 16 bits of the read |
| Psp.PollReady | psp.c:246-271 | polling spends at most its budget of reads, stops at the first read with the ready bit and reports its status, and fails with no ready read |
| Psp.PollAllBusy | psp.c:251-264 | a register that never shows ready costs every read and fails |
| Psp.PollFirstReady | psp.c:251-268 | polling ends at the first ready read with that read's status |
| Psp.WaitForPspReady | psp.c:246-271 | the loop with `retry = 50` and `--retry` reads at most 49 times and computes exactly the poll |
| Psp.CommandWordFields | include/psp.h:40-45 | a command word carries the command in the CMD field and zero in the ready bit, TMR index and status |
| Psp.PollSucceedsIff | psp.c:313-323 | a poll ends in status 0 iff within 49 reads the first ready read carries status 0 |
| Psp.MailboxCommand | psp.c:336-352 | a busy mailbox fails with no write; a ready one gets the command word; success iff the poll ends with status 0 |
| Psp.DrtmLaunch | psp.c:330-357 | launch posts 0x40000 and succeeds iff the mailbox was ready and the poll ends with status 0 |
| Psp.DrtmGetCap | psp.c:359-394 | get-capability posts 0x10000 and succeeds iff the mailbox was ready and the poll ends with status 0 |
| Psp.DrtmExtendOsslDigest | psp.c:279-328 | an image over 0xFFFFFFFF bytes or a busy mailbox fails before any write; otherwise the size, 0x08000000, 0 and 0xB0000 are written in that order; success iff the poll ends with status 0 |

## Left out

- header_tool.py: getopt parsing, the file-existence check, file I/O and printed messages. The version and patch level are the integers `int(x, 16)` produces; parsing the hex strings is not modelled.
- main.c: `dma_protection_setup`, TPM enabling, locality and PCR extends, `hexdump` and `print`. The TPM family and the loader digests are parameters of `Launch.SklMain`. The measurements do not change the hand-off. `extend_pcr` takes a u32 `size` (main.c:44), so on a wrapped `dlme_size` skl_main hashes only `dlme_size mod 2^32` bytes, a range that reaches 4 GiB (`Launch.WrappedMeasurementReaches4G`); it jumps afterwards only if those reads do not fault. `entry_offset` is a u32 too (main.c:319, 361), so the measured entry offset is `dlme_entry mod 2^32`, which is 0 on the Findings input while the jump goes to base + 2^32. `Launch.MeasuredLength` and `Launch.MeasuredEntryOffset` model the two values.
- Launch.CheckDlInfo: reads the whole 64-byte entry at once after the header checks, where the source reads fields one by one. The two differ only when the modelled memory ends inside the table.
- Launch.AmdslLaunch: leaves out the C2PMSG_72 read in `init_drtm_interface`, whose value is only printed; `reg` counts the commands' reads.
- Launch.AmdslLaunch: leaves out `pci_init` and the `discover_psp` bus scan. amdsl_launch's control flow does not depend on them. A failed `discover_psp` leaves the mailbox pointers NULL, and that case is not modelled (see the psp.c line below).
- Launch.SklMainJumpsIntoImage: states the jump into the image for the corrected walker and check only. skl_main as written can jump outside the image on a wrapped size. `Launch.SklMainAsWrittenJump` states what it does then.
- Launch.SklMainAsWrittenJump: states what a jump looks like, not that one happens. Before the DL_INFO check, event_log_init can read through NULL (as written) or loop on a size-0 entry (either variant), and then skl_main never jumps; `Launch.SklMain` makes that `Hang`.
- Launch.SklMainAsWrittenJump: assumes that the reads before the jump at or above 4 GiB do not fault: the hash of a wrapped image (main.c:363) reaches 4 GiB and the hexdump of the entry (main.c:373) may lie above it. Which addresses the 64-bit page tables map is not part of this model, so on a wrapped size the loader jumps above 4 GiB or faults.
- Launch.AmdslWrappedSizeStillJumps: assumes that the hexdump of the entry before the return (main.c:297) does not fault; on a wrapped size the entry may lie at or above 4 GiB, and which addresses the page tables map is not part of this model.
- Launch.AmdslExtendsAcceptedImage: states "never refused for size" for the corrected check only. As written, psp.c refuses a wrap-accepted size, and `Launch.AmdslWrappedSizeStillJumps` states that case.
- HeaderTool.Patch: reports the size message only with a successful result. The tool prints it at header_tool.py:71-72, before the stores at lines 77-81 that can still raise. Printing is not modelled.
- psp.c: the PCI bus scan of `discover_psp`, `drtm_udelay` timing, the `memcpy` relocation of the image, and status-name printing.
- psp.c: the commands run against initialised mailboxes. What a command does when `discover_psp` failed and the mailbox pointers are NULL is not modelled.
- event_log.c: the hash computations `sha1sum` and `sha256sum`; the digests are opaque inputs.
- event_log.c: the loader's own address `_start` and `SLB_SIZE` are parameters. boot.h, which defines SLB_SIZE, is not part of this model.
- event_log.c: `start + SLB_SIZE` is added without wrap-around, since it is a link-time address.
- EventLog.EventLogInit: reads the 24-byte LOG_INFO entry at once after the lookups, where the source reads `size`, `addr` and `format` one by one.
- EventLog.EventLogInit: a failure before `ptr_current` is set leaves the statics NULL (`UNINITIALISED`). The model assumes event_log_init runs once, from that state.
- event_log.c: strings are byte sequences without their terminator, so `strlen` is the sequence length.
- iommu.c and dev.c: hardware register programming; their effects are only observable in the device.

## Findings

| source | as written | input that shows it | evidently intended | confidence | as-written member | corrected member |
|---|---|---|---|---|---|---|
| include/slrt.h:110-111 | `t = next_entry(t); if (t->tag == tag)` reads a tag through the NULL that `next_entry` returns when the walk reaches the table's end without an END entry | a 20-byte table whose only entry is DL_INFO of size 4 with no END entry, searched for LOG_INFO (event_log_init's first lookup) | return NULL when `next_entry` does | high (not executed) | Slrt.AsWrittenReadsNull | Slrt.NextEntryWithTag |
| main.c:352-353 | `dlme_base + dlme_size >= 0x100000000ULL` is a u64 sum, so a huge `dlme_size` wraps it below 4 GiB and passes | dlme_base 0x1000, dlme_size 0xFFFFFFFFFFFFF010, dlme_entry 0x100000000, GRUB: accepted; skl_main measures entry offset 0 and hashes `[0x1000, 0x100000010)`, then jumps to 0x100001000 above 4 GiB, or faults, depending on the page tables | the image `[base, base + size)` ends below 4 GiB, so the entry fits in 32 bits | high (not executed) | Launch.WrappedSizeAccepted | Launch.AcceptedImageBelow4G |

The same wrap appears in amdsl_launch at main.c:266. The lookup, event_log_init, the DL_INFO check and both hand-offs take the variant as a parameter: `AsWritten` is the program as written, `Corrected` has both fixes. `Slrt.SearchVariantsAgree`, `EventLog.EventLogInitVariantsDiffer` and `Launch.HandOffVariantsDiffer` show that these two are the only ways the variants differ. `EventLog.LastLogInfoCrashes` and `Launch.AmdslWrappedSizeStillJumps` show each finding reaching event_log_init and amdsl_launch.

=== FILE: bytes.dfy ===
/** Fixed-width unsigned integers and their little-endian byte encoding.

    Every structure the loader touches (the PSP image header, the SLRT, the
    DRTM event log) is packed and little-endian, so one codec serves them all:
    `EncodeLE` writes an n-byte field, `DecodeLE` reads one back, and
    `WriteBytes` / `Slice` place and fetch fields inside a larger buffer. */
module Bytes {

  const TWO_16: nat := 0x1_0000
  const TWO_32: nat := 0x1_0000_0000
  const TWO_64: nat := 0x1_0000_0000_0000_0000

  type byte = x: int | 0 <= x < 0x100
  type u16 = x: int | 0 <= x < 0x1_0000
  type u32 = x: int | 0 <= x < 0x1_0000_0000
  type u64 = x: int | 0 <= x < 0x1_0000_0000_0000_0000

  /** The number of distinct values an n-byte field holds. */
  function Pow256(n: nat): (r: nat)
    ensures r >= 1
  {
    if n == 0 then 1 else 256 * Pow256(n - 1)
  }

  lemma Pow256Widths()
    ensures Pow256(2) == TWO_16
    ensures Pow256(4) == TWO_32
    ensures Pow256(8) == TWO_64
  {
    assert Pow256(1) == 256;
    assert Pow256(2) == 256 * 256;
    assert Pow256(3) == 256 * 256 * 256;
    assert Pow256(4) == 256 * 256 * 256 * 256;
  }

  /** The n-byte little-endian encoding of x; bytes above the n-th are dropped,
      as a C assignment to a narrower field drops them. */
  function EncodeLE(x: nat, n: nat): (r: seq<byte>)
    ensures |r| == n
  {
    if n == 0 then [] else [x % 256] + EncodeLE(x / 256, n - 1)
  }

  /** The value of a little-endian byte string: it always fits the field. */
  function DecodeLE(s: seq<byte>): (r: nat)
    ensures r < Pow256(|s|)
  {
    if |s| == 0 then 0 else s[0] + 256 * DecodeLE(s[1..])
  }

  /** Reading back a field that was written returns the value written. */
  lemma {:induction false} DecodeEncode(x: nat, n: nat)
    requires x < Pow256(n)
    ensures DecodeLE(EncodeLE(x, n)) == x
  {
    if n > 0 {
      var e := EncodeLE(x, n);
      assert e[1..] == EncodeLE(x / 256, n - 1);
      DecodeEncode(x / 256, n - 1);
    }
  }

  /** Writing back a field that was read reproduces its bytes. */
  lemma {:induction false} EncodeDecode(s: seq<byte>)
    ensures EncodeLE(DecodeLE(s), |s|) == s
  {
    if |s| > 0 {
      var d := DecodeLE(s);
      assert d % 256 == s[0] && d / 256 == DecodeLE(s[1..]);
      EncodeDecode(s[1..]);
    }
  }

  /** The fields of a four-byte little-endian word, least significant first. */
  lemma Decode4(s: seq<byte>)
    requires |s| == 4
    ensures DecodeLE(s) == s[0] as int + 256 * (s[1] as int) + 0x1_0000 * (s[2] as int) + 0x100_0000 * (s[3] as int)
  {
    assert s[3..][1..] == [];
    assert DecodeLE(s[3..]) == s[3];
    assert s[2..][1..] == s[3..];
    assert DecodeLE(s[2..]) == s[2] as int + 256 * (s[3] as int);
    assert s[1..][1..] == s[2..];
    assert DecodeLE(s[1..]) == s[1] as int + 256 * (s[2] as int) + 0x1_0000 * (s[3] as int);
  }

  /** The two bytes of a little-endian half-word. */
  lemma Decode2(s: seq<byte>)
    requires |s| == 2
    ensures DecodeLE(s) == s[0] as int + 256 * (s[1] as int)
  {
    assert s[1..][1..] == [];
  }

  /** The n bytes of `mem` that start at `off`. */
  function Slice(mem: seq<byte>, off: nat, n: nat): (r: seq<byte>)
    requires off + n <= |mem|
    ensures |r| == n
    ensures forall i :: 0 <= i < n ==> r[i] == mem[off + i]
  {
    mem[off..off + n]
  }

  /** The n-byte little-endian field of `mem` at `off`. */
  function ReadLE(mem: seq<byte>, off: nat, n: nat): (r: nat)
    requires off + n <= |mem|
    ensures r < Pow256(n)
  {
    DecodeLE(Slice(mem, off, n))
  }

  /** `mem` with `data` copied over the bytes starting at `off` (a memcpy into
      a buffer large enough to hold it). */
  function WriteBytes(mem: seq<byte>, off: nat, data: seq<byte>): (r: seq<byte>)
    requires off + |data| <= |mem|
    ensures |r| == |mem|
    ensures forall i :: 0 <= i < |data| ==> r[off + i] == data[i]
    ensures forall i :: 0 <= i < |mem| && (i < off || off + |data| <= i) ==> r[i] == mem[i]
  {
    mem[..off] + data + mem[off + |data|..]
  }

  /** `mem` with the n-byte little-endian field at `off` set to x. */
  function WriteLE(mem: seq<byte>, off: nat, n: nat, x: nat): (r: seq<byte>)
    requires off + n <= |mem|
    ensures |r| == |mem|
  {
    WriteBytes(mem, off, EncodeLE(x, n))
  }

  /** A field reads back what was last written to it. */
  lemma ReadAfterWrite(mem: seq<byte>, off: nat, n: nat, x: nat)
    requires off + n <= |mem|
    requires x < Pow256(n)
    ensures ReadLE(WriteLE(mem, off, n, x), off, n) == x
  {
    var w := WriteLE(mem, off, n, x);
    assert Slice(w, off, n) == EncodeLE(x, n);
    DecodeEncode(x, n);
  }

  /** A write leaves every field it does not overlap unchanged. */
  lemma ReadAfterOtherWrite(mem: seq<byte>, off: nat, data: seq<byte>, off2: nat, n: nat)
    requires off + |data| <= |mem| && off2 + n <= |mem|
    requires off + |data| <= off2 || off2 + n <= off
    ensures Slice(WriteBytes(mem, off, data), off2, n) == Slice(mem, off2, n)
    ensures ReadLE(WriteBytes(mem, off, data), off2, n) == ReadLE(mem, off2, n)
  {
    assert Slice(WriteBytes(mem, off, data), off2, n) == Slice(mem, off2, n);
  }

  /** A block reads back as written, and so does every field inside it. */
  lemma ReadInsideWrite(mem: seq<byte>, off: nat, data: seq<byte>, i: nat, n: nat)
    requires off + |data| <= |mem|
    requires i + n <= |data|
    ensures Slice(WriteBytes(mem, off, data), off + i, n) == data[i..i + n]
    ensures ReadLE(WriteBytes(mem, off, data), off + i, n) == DecodeLE(data[i..i + n])
  {
    assert Slice(WriteBytes(mem, off, data), off + i, n) == data[i..i + n];
  }

  /** A byte below a multiple of 256 is its remainder, the multiple its
      quotient. */
  lemma DivModByte(a: nat, k: nat)
    requires a < 256
    ensures (a + 256 * k) % 256 == a
    ensures (a + 256 * k) / 256 == k
  {
  }

  /** A value that fits 32 bits survives a cast to u32. */
  lemma FitsU32(x: nat)
    requires x < TWO_32
    ensures x % TWO_32 == x
  {
  }

  /** The same for a half-word below a multiple of 2^16. */
  lemma DivModHalf(a: nat, k: nat)
    requires a < TWO_16
    ensures (a + TWO_16 * k) % TWO_16 == a
    ensures (a + TWO_16 * k) / TWO_16 == k
  {
  }

  /** n zero bytes. */
  function Zeros(n: nat): (r: seq<byte>)
    ensures |r| == n
    ensures forall i :: 0 <= i < n ==> r[i] == 0
  {
    seq(n, _ => 0)
  }
}

=== FILE: event_log.dfy ===
/** The DRTM event log writer (event_log.c).

    The bootloader's LOG_INFO entry names a buffer; event_log_init checks it,
    wipes it, and writes a TCG-style header: a first event in TPM 1.2 format
    whose payload is a "Spec ID" structure for the TPM family in use. Every
    later event is appended at `ptr_current`, and a running offset inside the
    Spec ID structure (`next_event_offset` for TPM 1.2, `next_record_offset`
    for TPM 2.0) is advanced by the same amount so a reader knows where the
    log ends. Any failure of event_log_init sets `limit = ptr_current`, after
    which no write can succeed.

    The three statics `evtlog_base`, `ptr_current` and `limit` are the state
    `Log`. The buffer is modelled as the bytes from `evtlog_base` on, and
    `cur` and `limit` as offsets from it. The SHA-1 and SHA-256 digests of
    the loader are inputs. The LOG_INFO lookups take the walker `Variant`,
    as the SLRT module defines it. */
module EventLog {
  import opened Results
  import opened Bytes
  import opened Slrt

  const EV_NO_ACTION: u32 := 0x3
  const EV_TYPE_SLAUNCH: u32 := 0x502
  const HASH_COUNT: u32 := 2
  const TPM_ALG_SHA1: u16 := 0x0004
  const TPM_ALG_SHA256: u16 := 0x000B
  const SHA1_DIGEST_SIZE: nat := 20
  const SHA256_DIGEST_SIZE: nat := 32

  /** sizeof of the packed structures. */
  const TPM12_EVENT_SIZE: nat := 32      // tpm12_event_t
  const TPM20_EVENT_SIZE: nat := 72      // tpm20_event_t
  const TPM12_LOG_HEADER_SIZE: nat := 48 // tpm12_event_log_header
  const TPM12_ID_SIZE: nat := 73         // tpm12_spec_id_ev_t
  const TPM20_ID_SIZE: nat := 57         // tpm20_spec_id_ev_t
  const LOG_INFO_SIZE: nat := 24         // slr_entry_log_info

  /** Offsets from evtlog_base. The Spec ID structure follows the first
      event; inside it, the TPM 1.2 container header starts 25 bytes in and
      the TPM 2.0 pointer element 37 bytes in. */
  const TPM12_HDR: nat := TPM12_EVENT_SIZE + 25                       // 57
  const TPM12_CONTAINER_SIZE: nat := TPM12_HDR + 36                   // 93
  const TPM12_NEXT_EVENT_OFFSET: nat := TPM12_HDR + 44                // 101
  const TPM12_FIRST_EVENT: nat := TPM12_EVENT_SIZE + TPM12_ID_SIZE    // 105
  const TPM20_EL: nat := TPM12_EVENT_SIZE + 37                        // 69
  const TPM20_PHYS_ADDR: nat := TPM20_EL                              // 69
  const TPM20_ALLOCATED: nat := TPM20_EL + 8                          // 77
  const TPM20_NEXT_RECORD_OFFSET: nat := TPM20_EL + 16                // 85
  const TPM20_FIRST_EVENT: nat := TPM12_EVENT_SIZE + TPM20_ID_SIZE    // 89

  /** The PCR the SKINIT measurement is recorded against. */
  const SKINIT_PCR: u32 := 17

  /** The event text "SKINIT", without its terminator. */
  const SKINIT_EVENT: seq<byte> := [0x53, 0x4B, 0x49, 0x4E, 0x49, 0x54]

  /** A `char[n]` initialised from a string literal: its characters, then
      zero padding. */
  function CString(s: string, n: nat): (r: seq<byte>)
    requires |s| <= n
    requires forall i :: 0 <= i < |s| ==> s[i] as int < 0x100
    ensures |r| == n
    ensures forall i :: 0 <= i < n ==> r[i] == if i < |s| then s[i] as int else 0
  {
    seq(n, i requires 0 <= i < n => if i < |s| then s[i] as int else 0)
  }

  /** tpm12_id_struct, laid out byte by byte: the common Spec ID part
      (version 1.2, errata 1), vendor_info_size 48, then the "TXT Event
      Container" header whose pcr_events_offset and next_event_offset are
      both 48, relative to the header itself. */
  const TPM12_ID_STRUCT: seq<byte> :=
    CString("Spec ID Event00", 16) + EncodeLE(0, 4) + [2, 1, 1, 0] + [TPM12_LOG_HEADER_SIZE] +
    CString("TXT Event Container", 20) + Zeros(12) + [1, 0, 1, 0] +
    EncodeLE(0, 4) + EncodeLE(TPM12_LOG_HEADER_SIZE, 4) + EncodeLE(TPM12_LOG_HEADER_SIZE, 4)

  /** tpm20_id_struct: the common part (version 2.0, uintn_size 2), the two
      digest algorithms SHA-1 (20 bytes) and SHA-256 (32 bytes),
      vendor_info_size 20, and a pointer element whose next_record_offset is
      89, the end of the header event. */
  const TPM20_ID_STRUCT: seq<byte> :=
    CString("Spec ID Event03", 16) + EncodeLE(0, 4) + [0, 2, 0, 2] +
    EncodeLE(HASH_COUNT, 4) + EncodeLE(TPM_ALG_SHA1, 2) + EncodeLE(SHA1_DIGEST_SIZE, 2) +
    EncodeLE(TPM_ALG_SHA256, 2) + EncodeLE(SHA256_DIGEST_SIZE, 2) + [20] +
    EncodeLE(0, 8) + EncodeLE(0, 4) + EncodeLE(0, 4) + EncodeLE(TPM20_FIRST_EVENT, 4)

  /** The offsets the id structures promise agree with the layout: the
      structures have their sizeof, and the running offset each starts with
      points just past the header event. */
  lemma IdStructLayout()
    ensures |TPM12_ID_STRUCT| == TPM12_ID_SIZE && |TPM20_ID_STRUCT| == TPM20_ID_SIZE
    ensures TPM12_ID_STRUCT[TPM12_NEXT_EVENT_OFFSET - TPM12_EVENT_SIZE..][..4] == EncodeLE(TPM12_LOG_HEADER_SIZE, 4)
    ensures TPM12_HDR + TPM12_LOG_HEADER_SIZE == TPM12_FIRST_EVENT
    ensures TPM20_ID_STRUCT[TPM20_NEXT_RECORD_OFFSET - TPM12_EVENT_SIZE..][..4] == EncodeLE(TPM20_FIRST_EVENT, 4)
  {
    var s12 := TPM12_ID_STRUCT;
    assert s12[69..][..4] == EncodeLE(TPM12_LOG_HEADER_SIZE, 4);
    var s20 := TPM20_ID_STRUCT;
    assert s20[53..][..4] == EncodeLE(TPM20_FIRST_EVENT, 4);
  }

  /** A tpm12_event_t record: PCR, event type, SHA-1 digest, event size. */
  function Tpm12Event(pcr: u32, eventType: u32, digest: seq<byte>, eventSize: u32): (r: seq<byte>)
    requires |digest| == SHA1_DIGEST_SIZE
    ensures |r| == TPM12_EVENT_SIZE
  {
    EncodeLE(pcr, 4) + EncodeLE(eventType, 4) + digest + EncodeLE(eventSize, 4)
  }

  /** A tpm20_event_t record: PCR, event type, then the two digests in the
      little-endian TPML_DIGEST_VALUES layout, then the event size. */
  function Tpm20Event(pcr: u32, eventType: u32, sha1: seq<byte>, sha256: seq<byte>, eventSize: u32): (r: seq<byte>)
    requires |sha1| == SHA1_DIGEST_SIZE && |sha256| == SHA256_DIGEST_SIZE
    ensures |r| == TPM20_EVENT_SIZE
  {
    EncodeLE(pcr, 4) + EncodeLE(eventType, 4) + EncodeLE(HASH_COUNT, 4) +
    EncodeLE(TPM_ALG_SHA1, 2) + sha1 + EncodeLE(TPM_ALG_SHA256, 2) + sha256 + EncodeLE(eventSize, 4)
  }

  /** A reader of the log recovers every field of a TPM 1.2 record. */
  lemma Tpm12EventFields(pcr: u32, eventType: u32, digest: seq<byte>, eventSize: u32)
    requires |digest| == SHA1_DIGEST_SIZE
    ensures var r := Tpm12Event(pcr, eventType, digest, eventSize);
            && ReadLE(r, 0, 4) == pcr
            && ReadLE(r, 4, 4) == eventType
            && Slice(r, 8, 20) == digest
            && ReadLE(r, 28, 4) == eventSize
  {
    var r := Tpm12Event(pcr, eventType, digest, eventSize);
    Pow256Widths();
    assert Slice(r, 0, 4) == EncodeLE(pcr, 4);
    assert Slice(r, 4, 4) == EncodeLE(eventType, 4);
    assert Slice(r, 28, 4) == EncodeLE(eventSize, 4);
    DecodeEncode(pcr, 4);
    DecodeEncode(eventType, 4);
    DecodeEncode(eventSize, 4);
  }

  /** A reader of the log recovers every field of a TPM 2.0 record: two
      digests, SHA-1 then SHA-256, each after its algorithm id. */
  lemma Tpm20EventFields(pcr: u32, eventType: u32, sha1: seq<byte>, sha256: seq<byte>, eventSize: u32)
    requires |sha1| == SHA1_DIGEST_SIZE && |sha256| == SHA256_DIGEST_SIZE
    ensures var r := Tpm20Event(pcr, eventType, sha1, sha256, eventSize);
            && ReadLE(r, 0, 4) == pcr
            && ReadLE(r, 4, 4) == eventType
            && ReadLE(r, 8, 4) == 2
            && ReadLE(r, 12, 2) == 0x0004
            && Slice(r, 14, 20) == sha1
            && ReadLE(r, 34, 2) == 0x000B
            && Slice(r, 36, 32) == sha256
            && ReadLE(r, 68, 4) == eventSize
  {
    var r := Tpm20Event(pcr, eventType, sha1, sha256, eventSize);
    Pow256Widths();
    assert Slice(r, 0, 4) == EncodeLE(pcr, 4);
    assert Slice(r, 4, 4) == EncodeLE(eventType, 4);
    assert Slice(r, 8, 4) == EncodeLE(HASH_COUNT, 4);
    assert Slice(r, 12, 2) == EncodeLE(TPM_ALG_SHA1, 2);
    assert Slice(r, 34, 2) == EncodeLE(TPM_ALG_SHA256, 2);
    assert Slice(r, 68, 4) == EncodeLE(eventSize, 4);
    DecodeEncode(pcr, 4);
    DecodeEncode(eventType, 4);
    DecodeEncode(HASH_COUNT, 4);
    DecodeEncode(TPM_ALG_SHA1, 2);
    DecodeEncode(TPM_ALG_SHA256, 2);
    DecodeEncode(eventSize, 4);
  }

  /** The writer's state: the buffer from evtlog_base on, and ptr_current and
      limit as offsets into it. */
  datatype Log = Log(buf: seq<byte>, cur: nat, limit: nat)

  /** The statics before event_log_init: all three pointers NULL. */
  const UNINITIALISED: Log := Log([], 0, 0)

  /** The writer's invariant: ptr_current never passes limit, the buffer
      covers [evtlog_base, limit) and its size fits the u32 `size` field it
      came from; and a log with room left has the header area the event
      writers patch. */
  predicate Valid(log: Log) {
    && log.cur <= log.limit <= |log.buf| < TWO_32
    && (log.cur < log.limit ==> TPM12_FIRST_EVENT <= |log.buf|)
  }

  /** A log that no write can extend: `limit = ptr_current`. */
  predicate Poisoned(log: Log) {
    log.cur == log.limit
  }

  /** A function result: the C return value (0 success, 1 failure) and the
      state after the call. */
  datatype Logged = Logged(status: int, log: Log)

  /** log_write: append `data` when it fits strictly inside what is left. */
  function LogWrite(log: Log, data: seq<byte>): (r: Logged)
    requires Valid(log)
    ensures r.status == 0 || r.status == 1
    ensures r.status == 0 <==> |data| < log.limit - log.cur
    ensures r.status == 1 ==> r.log == log
    ensures r.status == 0 ==> && Valid(r.log) && r.log.limit == log.limit && r.log.cur == log.cur + |data|
                              && |r.log.buf| == |log.buf|
                              && Slice(r.log.buf, log.cur, |data|) == data
                              && forall i :: 0 <= i < |log.buf| && (i < log.cur || log.cur + |data| <= i) ==>
                                   r.log.buf[i] == log.buf[i]
  {
    if |data| >= log.limit - log.cur then Logged(1, log)
    else
      var r := Logged(0, log.(buf := WriteBytes(log.buf, log.cur, data), cur := log.cur + |data|));
      ReadInsideWrite(log.buf, log.cur, data, 0, |data|);
      r
  }

  /** The running offset of a TPM 1.2 log: `next_event_offset` counts from
      the container header at byte 57 and points at ptr_current. */
  predicate Tpm12Log(log: Log) {
    && TPM12_FIRST_EVENT <= log.cur <= log.limit <= |log.buf| < TWO_32
    && ReadLE(log.buf, TPM12_NEXT_EVENT_OFFSET, 4) == log.cur - TPM12_HDR
  }

  /** The running offset of a TPM 2.0 log: `next_record_offset` counts from
      evtlog_base and points at ptr_current. */
  predicate Tpm20Log(log: Log) {
    && TPM20_FIRST_EVENT <= log.cur <= log.limit <= |log.buf| < TWO_32
    && (log.cur < log.limit ==> TPM12_FIRST_EVENT <= |log.buf|)
    && ReadLE(log.buf, TPM20_NEXT_RECORD_OFFSET, 4) == log.cur
  }

  /** `ev.event_size = strlen(event)`: the length truncated to the u32 field. */
  function EventSize(event: seq<byte>): (es: u32)
    ensures |event| < TWO_32 ==> es == |event|
    ensures es <= |event| && (|event| - es) % TWO_32 == 0
  {
    |event| % TWO_32
  }

  /** What both event writers do once the space check has passed: set the
      running offset field at `field`, then append the record and the text.
      The space check makes both writes succeed. */
  function Append(log: Log, field: nat, offset: u32, record: seq<byte>, text: seq<byte>): (r: Logged)
    requires Valid(log)
    requires field + 4 <= |log.buf|
    requires |record| + |text| < log.limit - log.cur
    ensures r.status == 0 && Valid(r.log) && r.log.limit == log.limit
    ensures r.log.cur == log.cur + |record| + |text| && |r.log.buf| == |log.buf|
  {
    var patched := log.(buf := WriteLE(log.buf, field, 4, offset));
    var written := LogWrite(patched, record);
    LogWrite(written.log, text)
  }

  /** After Append the offset field holds the new value, the record and the
      text sit at the old end, one after the other, and every other byte is
      as before. */
  lemma AppendLays(log: Log, field: nat, offset: u32, record: seq<byte>, text: seq<byte>)
    requires Valid(log)
    requires field + 4 <= log.cur
    requires |record| + |text| < log.limit - log.cur
    ensures var r := Append(log, field, offset, record, text).log;
            && ReadLE(r.buf, field, 4) == offset
            && Slice(r.buf, log.cur, |record|) == record
            && Slice(r.buf, log.cur + |record|, |text|) == text
            && forall i :: 0 <= i < |log.buf| && (i < log.cur || r.cur <= i) && !(field <= i < field + 4) ==>
                             r.buf[i] == log.buf[i]
  {
    var patched := log.(buf := WriteLE(log.buf, field, 4, offset));
    var written := LogWrite(patched, record);
    Pow256Widths();
    ReadAfterWrite(log.buf, field, 4, offset);
    ReadAfterOtherWrite(patched.buf, log.cur, record, field, 4);
    ReadAfterOtherWrite(written.log.buf, log.cur + |record|, text, field, 4);
    ReadAfterOtherWrite(written.log.buf, log.cur + |record|, text, log.cur, |record|);
  }

  /** What log_event_tpm12 and log_event_tpm20 share: if the record and the
      text fit strictly inside what is left, advance the running offset
      field at `field` by their sizes (a u32, so modulo 2^32) and append
      them; otherwise change nothing. `event` is the string without its
      terminator. */
  function LogEvent(log: Log, field: nat, record: seq<byte>, event: seq<byte>): (r: Logged)
    requires Valid(log)
    requires field + 4 <= TPM12_FIRST_EVENT
    ensures r.status == 0 <==> log.limit - log.cur > |record| + EventSize(event)
    ensures r.status != 0 ==> r.log == log
    ensures r.status == 0 ==> && Valid(r.log) && r.log.limit == log.limit && |r.log.buf| == |log.buf|
                              && r.log.cur == log.cur + |record| + EventSize(event)
  {
    var es := EventSize(event);
    if !(log.limit - log.cur > |record| + es) then Logged(1, log)
    else
      var offset := ReadLE(log.buf, field, 4);
      Append(log, field, (offset + |record| + es) % TWO_32, record, event[..es])
  }

  /** log_event_tpm12: a tpm12_event_t record, tracked by next_event_offset. */
  function LogEventTpm12(log: Log, pcr: u32, sha1: seq<byte>, event: seq<byte>): (r: Logged)
    requires Valid(log)
    requires |sha1| == SHA1_DIGEST_SIZE
    ensures r.status == 0 <==> log.limit - log.cur > TPM12_EVENT_SIZE + EventSize(event)
    ensures r.status != 0 ==> r.log == log
    ensures r.status == 0 ==> && Valid(r.log) && r.log.limit == log.limit
                              && r.log.cur == log.cur + TPM12_EVENT_SIZE + EventSize(event)
  {
    LogEvent(log, TPM12_NEXT_EVENT_OFFSET, Tpm12Event(pcr, EV_TYPE_SLAUNCH, sha1, EventSize(event)), event)
  }

  /** log_event_tpm20: a tpm20_event_t record, tracked by next_record_offset. */
  function LogEventTpm20(log: Log, pcr: u32, sha1: seq<byte>, sha256: seq<byte>, event: seq<byte>): (r: Logged)
    requires Valid(log)
    requires |sha1| == SHA1_DIGEST_SIZE && |sha256| == SHA256_DIGEST_SIZE
    ensures r.status == 0 <==> log.limit - log.cur > TPM20_EVENT_SIZE + EventSize(event)
    ensures r.status != 0 ==> r.log == log
    ensures r.status == 0 ==> && Valid(r.log) && r.log.limit == log.limit
                              && r.log.cur == log.cur + TPM20_EVENT_SIZE + EventSize(event)
  {
    LogEvent(log, TPM20_NEXT_RECORD_OFFSET, Tpm20Event(pcr, EV_TYPE_SLAUNCH, sha1, sha256, EventSize(event)), event)
  }

  /** A poisoned log refuses every write and every event, whatever its size. */
  lemma PoisonedRejectsAll(log: Log)
    requires Valid(log) && Poisoned(log)
    ensures forall data :: LogWrite(log, data) == Logged(1, log)
    ensures forall pcr: u32, sha1, event :: |sha1| == SHA1_DIGEST_SIZE ==>
              LogEventTpm12(log, pcr, sha1, event) == Logged(1, log)
    ensures forall pcr: u32, sha1, sha256, event :: |sha1| == SHA1_DIGEST_SIZE && |sha256| == SHA256_DIGEST_SIZE ==>
              LogEventTpm20(log, pcr, sha1, sha256, event) == Logged(1, log)
  {
  }

  /** An event appended to a log whose offset field counts from `origin` to
      the end keeps it doing so. */
  lemma LogEventOffset(log: Log, field: nat, origin: nat, record: seq<byte>, event: seq<byte>)
    requires Valid(log)
    requires field + 4 <= TPM12_FIRST_EVENT
    requires field + 4 <= log.cur && origin <= log.cur
    requires ReadLE(log.buf, field, 4) == log.cur - origin
    requires LogEvent(log, field, record, event).status == 0
    ensures var r := LogEvent(log, field, record, event).log;
            ReadLE(r.buf, field, 4) == r.cur - origin
  {
    var es := EventSize(event);
    var next := (ReadLE(log.buf, field, 4) + |record| + es) % TWO_32;
    assert next == log.cur - origin + |record| + es by {
      assert log.cur + |record| + es < log.limit;
      FitsU32(log.cur - origin + |record| + es);
    }
    AppendLays(log, field, next, record, event[..es]);
  }

  /** An appended event's record and text land at the old end of the log,
      one after the other. */
  lemma LogEventLays(log: Log, field: nat, record: seq<byte>, event: seq<byte>)
    requires Valid(log)
    requires field + 4 <= TPM12_FIRST_EVENT
    requires field + 4 <= log.cur
    requires LogEvent(log, field, record, event).status == 0
    ensures var r := LogEvent(log, field, record, event).log;
            && Slice(r.buf, log.cur, |record|) == record
            && Slice(r.buf, log.cur + |record|, EventSize(event)) == event[..EventSize(event)]
  {
    var es := EventSize(event);
    var next := (ReadLE(log.buf, field, 4) + |record| + es) % TWO_32;
    AppendLays(log, field, next, record, event[..es]);
  }

  /** An event changes no byte of the log outside its record, its text and
      the offset field. */
  lemma LogEventFrame(log: Log, field: nat, record: seq<byte>, event: seq<byte>)
    requires Valid(log)
    requires field + 4 <= TPM12_FIRST_EVENT
    requires field + 4 <= log.cur
    requires LogEvent(log, field, record, event).status == 0
    ensures var r := LogEvent(log, field, record, event).log;
            forall i :: 0 <= i < |log.buf| && (i < log.cur || r.cur <= i) && !(field <= i < field + 4) ==>
                          r.buf[i] == log.buf[i]
  {
    var es := EventSize(event);
    var next := (ReadLE(log.buf, field, 4) + |record| + es) % TWO_32;
    AppendLays(log, field, next, record, event[..es]);
  }

  /** Appending a TPM 1.2 event keeps next_event_offset pointing at the end
      of the log, lays the record and the text at the old end, and changes
      no other byte outside the offset field. */
  lemma Tpm12EventAppends(log: Log, pcr: u32, sha1: seq<byte>, event: seq<byte>)
    requires Tpm12Log(log)
    requires |sha1| == SHA1_DIGEST_SIZE
    requires LogEventTpm12(log, pcr, sha1, event).status == 0
    ensures var r := LogEventTpm12(log, pcr, sha1, event).log;
            var es := EventSize(event);
            && Tpm12Log(r)
            && Slice(r.buf, log.cur, TPM12_EVENT_SIZE) == Tpm12Event(pcr, EV_TYPE_SLAUNCH, sha1, es)
            && Slice(r.buf, log.cur + TPM12_EVENT_SIZE, es) == event[..es]
            && forall i :: 0 <= i < |log.buf| && (i < log.cur || r.cur <= i)
                             && !(TPM12_NEXT_EVENT_OFFSET <= i < TPM12_NEXT_EVENT_OFFSET + 4) ==>
                             r.buf[i] == log.buf[i]
  {
    var record := Tpm12Event(pcr, EV_TYPE_SLAUNCH, sha1, EventSize(event));
    LogEventOffset(log, TPM12_NEXT_EVENT_OFFSET, TPM12_HDR, record, event);
    LogEventLays(log, TPM12_NEXT_EVENT_OFFSET, record, event);
    LogEventFrame(log, TPM12_NEXT_EVENT_OFFSET, record, event);
  }

  /** The TPM 2.0 counterpart: next_record_offset keeps pointing at the end
      of the log, and the two-digest record and the text land at the old
      end. */
  lemma Tpm20EventAppends(log: Log, pcr: u32, sha1: seq<byte>, sha256: seq<byte>, event: seq<byte>)
    requires Tpm20Log(log)
    requires |sha1| == SHA1_DIGEST_SIZE && |sha256| == SHA256_DIGEST_SIZE
    requires LogEventTpm20(log, pcr, sha1, sha256, event).status == 0
    ensures var r := LogEventTpm20(log, pcr, sha1, sha256, event).log;
            var es := EventSize(event);
            && Tpm20Log(r)
            && Slice(r.buf, log.cur, TPM20_EVENT_SIZE) == Tpm20Event(pcr, EV_TYPE_SLAUNCH, sha1, sha256, es)
            && Slice(r.buf, log.cur + TPM20_EVENT_SIZE, es) == event[..es]
            && forall i :: 0 <= i < |log.buf| && (i < log.cur || r.cur <= i)
                             && !(TPM20_NEXT_RECORD_OFFSET <= i < TPM20_NEXT_RECORD_OFFSET + 4) ==>
                             r.buf[i] == log.buf[i]
  {
    var record := Tpm20Event(pcr, EV_TYPE_SLAUNCH, sha1, sha256, EventSize(event));
    LogEventOffset(log, TPM20_NEXT_RECORD_OFFSET, 0, record, event);
    LogEventLays(log, TPM20_NEXT_RECORD_OFFSET, record, event);
    LogEventFrame(log, TPM20_NEXT_RECORD_OFFSET, record, event);
  }

  datatype Family = Tpm12 | Tpm20 | OtherFamily

  /** The fields of struct slr_entry_log_info that event_log_init reads. */
  datatype LogInfo = LogInfo(format: u16, size: u32, addr: u64)

  /** The LOG_INFO entry at offset `at`, decoded from its packed layout. */
  function ReadLogInfo(mem: seq<byte>, at: nat): (info: LogInfo)
    requires at + LOG_INFO_SIZE <= |mem|
  {
    Pow256Widths();
    LogInfo(ReadLE(mem, at + 4, 2), ReadLE(mem, at + 12, 4), ReadLE(mem, at + 16, 8))
  }

  /** Each field ReadLogInfo decodes is the little-endian value of the bytes
      at its packed offset: writing the value back gives those bytes. */
  lemma ReadLogInfoFields(mem: seq<byte>, at: nat)
    requires at + LOG_INFO_SIZE <= |mem|
    ensures var info := ReadLogInfo(mem, at);
            && EncodeLE(info.format, 2) == Slice(mem, at + 4, 2)
            && EncodeLE(info.size, 4) == Slice(mem, at + 12, 4)
            && EncodeLE(info.addr, 8) == Slice(mem, at + 16, 8)
  {
    EncodeDecode(Slice(mem, at + 4, 2));
    EncodeDecode(Slice(mem, at + 12, 4));
    EncodeDecode(Slice(mem, at + 16, 8));
  }

  /** The smallest buffer event_log_init accepts: the header event, the id
      structure, and room for two records (event texts not counted). */
  function MinSize(family: Family): (n: nat)
    requires family != OtherFamily
    ensures family == Tpm12 ==> n == 169
    ensures family == Tpm20 ==> n == 233
  {
    TPM12_EVENT_SIZE +
    (if family == Tpm12 then TPM12_ID_SIZE + 2 * TPM12_EVENT_SIZE else TPM20_ID_SIZE + 2 * TPM20_EVENT_SIZE)
  }

  /** The log format each TPM family requires of LOG_INFO. */
  function LogFormat(family: Family): u16
    requires family != OtherFamily
  {
    if family == Tpm12 then SLR_DRTM_TPM12_LOG else SLR_DRTM_TPM20_LOG
  }

  function IdStruct(family: Family): (s: seq<byte>)
    requires family != OtherFamily
    ensures |s| == (if family == Tpm12 then TPM12_ID_SIZE else TPM20_ID_SIZE)
  {
    IdStructLayout();
    if family == Tpm12 then TPM12_ID_STRUCT else TPM20_ID_STRUCT
  }

  /** Where the first real event goes: just past the header event. */
  function FirstEvent(family: Family): nat
    requires family != OtherFamily
  {
    TPM12_EVENT_SIZE + |IdStruct(family)|
  }

  /** The header event: PCR 0, EV_NO_ACTION, a zero digest, and the size of
      the id structure that follows as its payload. */
  function HeaderEvent(family: Family): (r: seq<byte>)
    requires family != OtherFamily
    ensures |r| == TPM12_EVENT_SIZE
  {
    Tpm12Event(0, EV_NO_ACTION, Zeros(SHA1_DIGEST_SIZE), |IdStruct(family)|)
  }

  /** The buffer after the memset, the header event and the id structure. */
  function Headed(family: Family, info: LogInfo): (log: Log)
    requires family != OtherFamily
    requires info.size >= MinSize(family)
    ensures Valid(log) && log.limit == info.size && |log.buf| == info.size
    ensures log.cur == FirstEvent(family)
  {
    var wiped := Log(Zeros(info.size), 0, info.size);
    var header := LogWrite(wiped, HeaderEvent(family)).log;
    LogWrite(header, IdStruct(family)).log
  }

  /** After the TPM 1.2 id structure is written the header event sits at
      the start and next_event_offset already points just past it. */
  lemma HeadedTpm12(info: LogInfo)
    requires info.size >= MinSize(Tpm12)
    ensures var log := Headed(Tpm12, info);
            && Slice(log.buf, 0, TPM12_EVENT_SIZE) == HeaderEvent(Tpm12)
            && ReadLE(log.buf, TPM12_NEXT_EVENT_OFFSET, 4) == TPM12_LOG_HEADER_SIZE
  {
    var wiped := Log(Zeros(info.size), 0, info.size);
    var header := LogWrite(wiped, HeaderEvent(Tpm12)).log;
    var buf := Headed(Tpm12, info).buf;
    IdStructLayout();
    assert buf == WriteBytes(header.buf, TPM12_EVENT_SIZE, TPM12_ID_STRUCT);
    assert ReadLE(buf, TPM12_NEXT_EVENT_OFFSET, 4) == TPM12_LOG_HEADER_SIZE by {
      ReadInsideWrite(header.buf, TPM12_EVENT_SIZE, TPM12_ID_STRUCT, TPM12_NEXT_EVENT_OFFSET - TPM12_EVENT_SIZE, 4);
      assert TPM12_ID_STRUCT[TPM12_NEXT_EVENT_OFFSET - TPM12_EVENT_SIZE..TPM12_NEXT_EVENT_OFFSET - TPM12_EVENT_SIZE + 4] == EncodeLE(TPM12_LOG_HEADER_SIZE, 4);
      Pow256Widths();
      DecodeEncode(TPM12_LOG_HEADER_SIZE, 4);
    }
    ReadAfterOtherWrite(header.buf, TPM12_EVENT_SIZE, TPM12_ID_STRUCT, 0, TPM12_EVENT_SIZE);
  }

  /** After the TPM 2.0 id structure is written the header event sits at
      the start and next_record_offset already points just past it. */
  lemma HeadedTpm20(info: LogInfo)
    requires info.size >= MinSize(Tpm20)
    ensures var log := Headed(Tpm20, info);
            && Slice(log.buf, 0, TPM12_EVENT_SIZE) == HeaderEvent(Tpm20)
            && ReadLE(log.buf, TPM20_NEXT_RECORD_OFFSET, 4) == TPM20_FIRST_EVENT
  {
    var wiped := Log(Zeros(info.size), 0, info.size);
    var header := LogWrite(wiped, HeaderEvent(Tpm20)).log;
    var buf := Headed(Tpm20, info).buf;
    IdStructLayout();
    assert buf == WriteBytes(header.buf, TPM12_EVENT_SIZE, TPM20_ID_STRUCT);
    assert ReadLE(buf, TPM20_NEXT_RECORD_OFFSET, 4) == TPM20_FIRST_EVENT by {
      ReadInsideWrite(header.buf, TPM12_EVENT_SIZE, TPM20_ID_STRUCT, TPM20_NEXT_RECORD_OFFSET - TPM12_EVENT_SIZE, 4);
      assert TPM20_ID_STRUCT[TPM20_NEXT_RECORD_OFFSET - TPM12_EVENT_SIZE..TPM20_NEXT_RECORD_OFFSET - TPM12_EVENT_SIZE + 4] == EncodeLE(TPM20_FIRST_EVENT, 4);
      Pow256Widths();
      DecodeEncode(TPM20_FIRST_EVENT, 4);
    }
    ReadAfterOtherWrite(header.buf, TPM12_EVENT_SIZE, TPM20_ID_STRUCT, 0, TPM12_EVENT_SIZE);
  }

  /** The buffer after the memset and the header writes: the header event,
      the id structure, and then its size fields patched (container_size for
      TPM 1.2; allocated_event_container_size and phys_addr for TPM 2.0). */
  function WriteHeaders(family: Family, info: LogInfo): (log: Log)
    requires family != OtherFamily
    requires info.size >= MinSize(family)
    ensures Valid(log) && log.limit == info.size && |log.buf| == info.size
    ensures log.cur == FirstEvent(family)
  {
    var id := Headed(family, info);
    if family == Tpm12 then
      id.(buf := WriteLE(id.buf, TPM12_CONTAINER_SIZE, 4, info.size))
    else
      var sized := id.(buf := WriteLE(id.buf, TPM20_ALLOCATED, 4, info.size));
      sized.(buf := WriteLE(sized.buf, TPM20_PHYS_ADDR, 8, info.addr))
  }

  /** The TPM 1.2 header as laid down: the header event, the id structure
      with container_size set to the buffer size, and next_event_offset
      pointing at ptr_current. */
  lemma WriteHeadersTpm12(info: LogInfo)
    requires info.size >= MinSize(Tpm12)
    ensures var log := WriteHeaders(Tpm12, info);
            && Tpm12Log(log)
            && Slice(log.buf, 0, TPM12_EVENT_SIZE) == HeaderEvent(Tpm12)
            && ReadLE(log.buf, TPM12_CONTAINER_SIZE, 4) == info.size
  {
    var id := Headed(Tpm12, info);
    HeadedTpm12(info);
    Pow256Widths();
    ReadAfterWrite(id.buf, TPM12_CONTAINER_SIZE, 4, info.size);
    ReadAfterOtherWrite(id.buf, TPM12_CONTAINER_SIZE, EncodeLE(info.size, 4), TPM12_NEXT_EVENT_OFFSET, 4);
    ReadAfterOtherWrite(id.buf, TPM12_CONTAINER_SIZE, EncodeLE(info.size, 4), 0, TPM12_EVENT_SIZE);
  }

  /** The TPM 2.0 header as laid down: the header event, the id structure
      whose pointer element records the buffer's size and physical address,
      and next_record_offset pointing at ptr_current. */
  lemma WriteHeadersTpm20(info: LogInfo)
    requires info.size >= MinSize(Tpm20)
    ensures var log := WriteHeaders(Tpm20, info);
            && Tpm20Log(log)
            && Slice(log.buf, 0, TPM12_EVENT_SIZE) == HeaderEvent(Tpm20)
            && ReadLE(log.buf, TPM20_ALLOCATED, 4) == info.size
            && ReadLE(log.buf, TPM20_PHYS_ADDR, 8) == info.addr
  {
    var id := Headed(Tpm20, info);
    var sized := id.(buf := WriteLE(id.buf, TPM20_ALLOCATED, 4, info.size));
    HeadedTpm20(info);
    Pow256Widths();
    ReadAfterWrite(id.buf, TPM20_ALLOCATED, 4, info.size);
    ReadAfterOtherWrite(id.buf, TPM20_ALLOCATED, EncodeLE(info.size, 4), TPM20_NEXT_RECORD_OFFSET, 4);
    ReadAfterOtherWrite(id.buf, TPM20_ALLOCATED, EncodeLE(info.size, 4), 0, TPM12_EVENT_SIZE);
    ReadAfterWrite(sized.buf, TPM20_PHYS_ADDR, 8, info.addr);
    ReadAfterOtherWrite(sized.buf, TPM20_PHYS_ADDR, EncodeLE(info.addr, 8), TPM20_ALLOCATED, 4);
    ReadAfterOtherWrite(sized.buf, TPM20_PHYS_ADDR, EncodeLE(info.addr, 8), TPM20_NEXT_RECORD_OFFSET, 4);
    ReadAfterOtherWrite(sized.buf, TPM20_PHYS_ADDR, EncodeLE(info.addr, 8), 0, TPM12_EVENT_SIZE);
  }

  /** How event_log_init ends: its return value and the writer's state, or
      no return because the LOG_INFO lookup never ends. */
  datatype InitResult = Initialised(status: int, log: Log) | InitCrashed(why: Crash)

  /** The checks of event_log_init, before anything is written: they go on
      with the LOG_INFO entry and its fields, or stop with the state a
      failure leaves, or never end. */
  datatype Gate = Go(at: nat, info: LogInfo) | Stop(log: Log) | Halt(why: Crash)

  /** The source computes `limit = addr + size` in 64 bits and refuses the
      buffer when `ptr_current > limit`: for a non-empty buffer that is
      exactly the buffer running past the top of the address space. */
  lemma WrapCheck(addr: u64, size: u32)
    requires size > 0
    ensures addr > (addr + size) % TWO_64 <==> addr + size >= TWO_64
    ensures addr + size < TWO_64 ==> (addr + size) % TWO_64 == addr + size
  {
  }

  /** event_log.c lines 222-268: the two lookups, the family, the minimum size, the
      overflow and overlap checks, and the format. A failure before
      ptr_current is set leaves the statics NULL; after, it leaves
      cur = limit = 0 relative to the new evtlog_base (the buffer is wiped
      only before the format check). */
  function InitChecks(mem: seq<byte>, family: Family, start: u64, slbSize: nat, variant: Variant): (g: Gate)
    requires HasTableHeader(mem)
    ensures g.Go? <==> InitAccepts(mem, family, start, slbSize, variant)
    ensures g.Go? ==> g.at == Search(mem, None, SLR_ENTRY_LOG_INFO, variant).at
    ensures g.Go? ==> family != OtherFamily && g.at + LOG_INFO_SIZE <= |mem|
    ensures g.Go? ==> g.info == ReadLogInfo(mem, g.at) && g.info.size >= MinSize(family)
    ensures g.Stop? ==> Valid(g.log) && Poisoned(g.log)
    ensures g == Halt(NullRead) ==> variant == AsWritten
  {
    match Search(mem, None, SLR_ENTRY_LOG_INFO, variant)
    case Crashed(why) => Halt(why)
    case Null => Stop(UNINITIALISED)
    case Found(at) =>
      match Search(mem, Some(at), SLR_ENTRY_LOG_INFO, variant)
      case Crashed(why) => Halt(why)
      case Found(_) => Stop(UNINITIALISED)
      case Null =>
        if family == OtherFamily then Stop(UNINITIALISED)
        else if |mem| < at + LOG_INFO_SIZE then Halt(Unmapped)
        else CheckBuffer(family, at, ReadLogInfo(mem, at), start, slbSize)
  }

  /** event_log.c lines 245-268, once the LOG_INFO entry has been read: the
      minimum size, the overflow and overlap checks against the loader image
      [start, start + slbSize], and the format. */
  function CheckBuffer(family: Family, at: nat, info: LogInfo, start: u64, slbSize: nat): (g: Gate)
    requires family != OtherFamily
    ensures !g.Halt?
    ensures g.Go? <==> && info.size >= MinSize(family)
                       && info.addr + info.size < TWO_64
                       && (info.addr + info.size < start || start + slbSize < info.addr)
                       && info.format == LogFormat(family)
    ensures g.Go? ==> g.at == at && g.info == info
    ensures g.Stop? ==> Valid(g.log) && Poisoned(g.log)
  {
    var limit := (info.addr + info.size) % TWO_64;
    if info.size < MinSize(family) then Stop(UNINITIALISED)
    else if info.addr > limit then WrapCheck(info.addr, info.size); Stop(Log([], 0, 0))
    else if !(limit < start || start + slbSize < info.addr) then WrapCheck(info.addr, info.size); Stop(Log([], 0, 0))
    else if info.format != LogFormat(family) then Stop(Log(Zeros(info.size), 0, 0))
    else WrapCheck(info.addr, info.size); Go(at, info)
  }

  /** The conditions under which the checks pass, stated without the
      source's wrapped `limit`: the buffer must end before 2^64. */
  ghost predicate InitAccepts(mem: seq<byte>, family: Family, start: u64, slbSize: nat, variant: Variant)
    requires HasTableHeader(mem)
  {
    var w := Search(mem, None, SLR_ENTRY_LOG_INFO, variant);
    && w.Found?
    && Search(mem, Some(w.at), SLR_ENTRY_LOG_INFO, variant) == Null
    && family != OtherFamily
    && w.at + LOG_INFO_SIZE <= |mem|
    && var info := ReadLogInfo(mem, w.at);
       && info.size >= MinSize(family)
       && info.addr + info.size < TWO_64
       && (info.addr + info.size < start || start + slbSize < info.addr)
       && info.format == LogFormat(family)
  }

  /** The header and the SKINIT event, once the checks have passed. */
  function InitWrite(family: Family, info: LogInfo, sha1: seq<byte>, sha256: seq<byte>): (r: Logged)
    requires family != OtherFamily && info.size >= MinSize(family)
    requires |sha1| == SHA1_DIGEST_SIZE && |sha256| == SHA256_DIGEST_SIZE
    ensures r.status == 0 && Valid(r.log)
    ensures |r.log.buf| == r.log.limit == info.size
  {
    var log := WriteHeaders(family, info);
    if family == Tpm12 then LogEventTpm12(log, SKINIT_PCR, sha1, SKINIT_EVENT)
    else LogEventTpm20(log, SKINIT_PCR, sha1, sha256, SKINIT_EVENT)
  }

  /** event_log_init. The LOG_INFO entry must exist and be the only one after
      itself; the TPM family must be 1.2 or 2.0; the buffer must hold
      MinSize bytes, must not wrap the address space, must lie wholly below
      or wholly above the loader image [start, start + slbSize], and must be
      in the family's format. Then the buffer is wiped, the header written,
      and the SKINIT measurement logged; its result is the return value.
      Every failure returns 1 with `limit = ptr_current`. The entry is read
      whole once the lookups have passed. */
  function EventLogInit(mem: seq<byte>, family: Family, start: u64, slbSize: nat,
                        sha1: seq<byte>, sha256: seq<byte>, variant: Variant): (r: InitResult)
    requires HasTableHeader(mem)
    requires |sha1| == SHA1_DIGEST_SIZE && |sha256| == SHA256_DIGEST_SIZE
    ensures r.Initialised? ==> (r.status == 0 || r.status == 1) && Valid(r.log)
    ensures r.Initialised? && r.status != 0 ==> Poisoned(r.log)
    ensures r.Initialised? && r.status == 0 <==> InitAccepts(mem, family, start, slbSize, variant)
    ensures r == InitCrashed(NullRead) ==> variant == AsWritten
  {
    match InitChecks(mem, family, start, slbSize, variant)
    case Halt(why) => InitCrashed(why)
    case Stop(log) => Initialised(1, log)
    case Go(_, info) =>
      var done := InitWrite(family, info, sha1, sha256);
      Initialised(done.status, done.log)
  }

  /** After a failed event_log_init no later write or event reaches the log. */
  lemma EventLogInitFailureBlocks(mem: seq<byte>, family: Family, start: u64, slbSize: nat,
                                  sha1: seq<byte>, sha256: seq<byte>, variant: Variant,
                                  data: seq<byte>, pcr: u32, event: seq<byte>)
    requires HasTableHeader(mem)
    requires |sha1| == SHA1_DIGEST_SIZE && |sha256| == SHA256_DIGEST_SIZE
    requires EventLogInit(mem, family, start, slbSize, sha1, sha256, variant).Initialised?
    requires EventLogInit(mem, family, start, slbSize, sha1, sha256, variant).status != 0
    ensures var log := EventLogInit(mem, family, start, slbSize, sha1, sha256, variant).log;
            && LogWrite(log, data).status == 1
            && LogEventTpm12(log, pcr, sha1, event).status == 1
            && LogEventTpm20(log, pcr, sha1, sha256, event).status == 1
  {
  }

  /** A field that lies wholly before byte `end`, where every byte before
      `end` is unchanged, reads the same in both buffers. */
  lemma KeptBelow(before: seq<byte>, after: seq<byte>, off: nat, n: nat, end: nat)
    requires |before| == |after| && off + n <= end <= |before|
    requires forall i :: 0 <= i < end ==> after[i] == before[i]
    ensures Slice(after, off, n) == Slice(before, off, n)
    ensures ReadLE(after, off, n) == ReadLE(before, off, n)
  {
    assert Slice(after, off, n) == Slice(before, off, n);
  }

  /** The SKINIT event leaves the TPM 1.2 header fields alone. */
  lemma SkinitKeepsHeader12(log: Log, sha1: seq<byte>)
    requires Tpm12Log(log) && log.cur == TPM12_FIRST_EVENT && log.limit >= MinSize(Tpm12)
    requires |sha1| == SHA1_DIGEST_SIZE
    ensures LogEventTpm12(log, SKINIT_PCR, sha1, SKINIT_EVENT).status == 0
    ensures var r := LogEventTpm12(log, SKINIT_PCR, sha1, SKINIT_EVENT).log;
            && Tpm12Log(r)
            && Slice(r.buf, 0, TPM12_EVENT_SIZE) == Slice(log.buf, 0, TPM12_EVENT_SIZE)
            && ReadLE(r.buf, TPM12_CONTAINER_SIZE, 4) == ReadLE(log.buf, TPM12_CONTAINER_SIZE, 4)
  {
    Tpm12EventAppends(log, SKINIT_PCR, sha1, SKINIT_EVENT);
    var r := LogEventTpm12(log, SKINIT_PCR, sha1, SKINIT_EVENT).log;
    KeptBelow(log.buf, r.buf, 0, TPM12_EVENT_SIZE, TPM12_NEXT_EVENT_OFFSET);
    KeptBelow(log.buf, r.buf, TPM12_CONTAINER_SIZE, 4, TPM12_NEXT_EVENT_OFFSET);
  }

  /** The SKINIT event leaves the TPM 2.0 header fields alone. */
  lemma SkinitKeepsHeader20(log: Log, sha1: seq<byte>, sha256: seq<byte>)
    requires Tpm20Log(log) && log.cur == TPM20_FIRST_EVENT && log.limit >= MinSize(Tpm20)
    requires |sha1| == SHA1_DIGEST_SIZE && |sha256| == SHA256_DIGEST_SIZE
    ensures LogEventTpm20(log, SKINIT_PCR, sha1, sha256, SKINIT_EVENT).status == 0
    ensures var r := LogEventTpm20(log, SKINIT_PCR, sha1, sha256, SKINIT_EVENT).log;
            && Tpm20Log(r)
            && Slice(r.buf, 0, TPM12_EVENT_SIZE) == Slice(log.buf, 0, TPM12_EVENT_SIZE)
            && ReadLE(r.buf, TPM20_ALLOCATED, 4) == ReadLE(log.buf, TPM20_ALLOCATED, 4)
            && ReadLE(r.buf, TPM20_PHYS_ADDR, 8) == ReadLE(log.buf, TPM20_PHYS_ADDR, 8)
  {
    Tpm20EventAppends(log, SKINIT_PCR, sha1, sha256, SKINIT_EVENT);
    var r := LogEventTpm20(log, SKINIT_PCR, sha1, sha256, SKINIT_EVENT).log;
    KeptBelow(log.buf, r.buf, 0, TPM12_EVENT_SIZE, TPM20_NEXT_RECORD_OFFSET);
    KeptBelow(log.buf, r.buf, TPM20_PHYS_ADDR, 8, TPM20_NEXT_RECORD_OFFSET);
    KeptBelow(log.buf, r.buf, TPM20_ALLOCATED, 4, TPM20_NEXT_RECORD_OFFSET);
  }

  /** The TPM 1.2 header a successful initialisation leaves: the header
      event, container_size set to the buffer size, and next_event_offset
      pointing at the end of the log. */
  lemma InitWriteTpm12(info: LogInfo, sha1: seq<byte>, sha256: seq<byte>)
    requires info.size >= MinSize(Tpm12)
    requires |sha1| == SHA1_DIGEST_SIZE && |sha256| == SHA256_DIGEST_SIZE
    ensures var log := InitWrite(Tpm12, info, sha1, sha256).log;
            && Tpm12Log(log)
            && Slice(log.buf, 0, TPM12_EVENT_SIZE) == HeaderEvent(Tpm12)
            && ReadLE(log.buf, TPM12_CONTAINER_SIZE, 4) == info.size
  {
    WriteHeadersTpm12(info);
    SkinitKeepsHeader12(WriteHeaders(Tpm12, info), sha1);
  }

  /** The SKINIT measurement a successful TPM 1.2 initialisation logs: PCR
      17, EV_TYPE_SLAUNCH and the text "SKINIT", right after the header. */
  lemma InitEventTpm12(info: LogInfo, sha1: seq<byte>, sha256: seq<byte>)
    requires info.size >= MinSize(Tpm12)
    requires |sha1| == SHA1_DIGEST_SIZE && |sha256| == SHA256_DIGEST_SIZE
    ensures var log := InitWrite(Tpm12, info, sha1, sha256).log;
            && log.cur == TPM12_FIRST_EVENT + TPM12_EVENT_SIZE + |SKINIT_EVENT|
            && Slice(log.buf, TPM12_FIRST_EVENT, TPM12_EVENT_SIZE) ==
                 Tpm12Event(SKINIT_PCR, EV_TYPE_SLAUNCH, sha1, |SKINIT_EVENT|)
            && Slice(log.buf, TPM12_FIRST_EVENT + TPM12_EVENT_SIZE, |SKINIT_EVENT|) == SKINIT_EVENT
  {
    var log := WriteHeaders(Tpm12, info);
    assert Tpm12Log(log) by { WriteHeadersTpm12(info); }
    assert EventSize(SKINIT_EVENT) == |SKINIT_EVENT|;
    Tpm12EventAppends(log, SKINIT_PCR, sha1, SKINIT_EVENT);
  }

  /** The TPM 2.0 header a successful initialisation leaves: the header
      event, the pointer element holding the buffer's size and physical
      address, and next_record_offset pointing at the end of the log. */
  lemma InitWriteTpm20(info: LogInfo, sha1: seq<byte>, sha256: seq<byte>)
    requires info.size >= MinSize(Tpm20)
    requires |sha1| == SHA1_DIGEST_SIZE && |sha256| == SHA256_DIGEST_SIZE
    ensures var log := InitWrite(Tpm20, info, sha1, sha256).log;
            && Tpm20Log(log)
            && Slice(log.buf, 0, TPM12_EVENT_SIZE) == HeaderEvent(Tpm20)
            && ReadLE(log.buf, TPM20_ALLOCATED, 4) == info.size
            && ReadLE(log.buf, TPM20_PHYS_ADDR, 8) == info.addr
  {
    WriteHeadersTpm20(info);
    SkinitKeepsHeader20(WriteHeaders(Tpm20, info), sha1, sha256);
  }

  /** The SKINIT measurement a successful TPM 2.0 initialisation logs: the
      two-digest record (PCR 17, EV_TYPE_SLAUNCH) and the text "SKINIT",
      right after the header. */
  lemma InitEventTpm20(info: LogInfo, sha1: seq<byte>, sha256: seq<byte>)
    requires info.size >= MinSize(Tpm20)
    requires |sha1| == SHA1_DIGEST_SIZE && |sha256| == SHA256_DIGEST_SIZE
    ensures var log := InitWrite(Tpm20, info, sha1, sha256).log;
            && log.cur == TPM20_FIRST_EVENT + TPM20_EVENT_SIZE + |SKINIT_EVENT|
            && Slice(log.buf, TPM20_FIRST_EVENT, TPM20_EVENT_SIZE) ==
                 Tpm20Event(SKINIT_PCR, EV_TYPE_SLAUNCH, sha1, sha256, |SKINIT_EVENT|)
            && Slice(log.buf, TPM20_FIRST_EVENT + TPM20_EVENT_SIZE, |SKINIT_EVENT|) == SKINIT_EVENT
  {
    var log := WriteHeaders(Tpm20, info);
    assert Tpm20Log(log) by { WriteHeadersTpm20(info); }
    assert EventSize(SKINIT_EVENT) == |SKINIT_EVENT|;
    Tpm20EventAppends(log, SKINIT_PCR, sha1, sha256, SKINIT_EVENT);
  }

  /** A successful event_log_init used the only LOG_INFO entry on the walk
      from it, placed the buffer clear of the loader, and left the log
      InitWrite describes. */
  lemma EventLogInitUnique(mem: seq<byte>, family: Family, start: u64, slbSize: nat,
                           sha1: seq<byte>, sha256: seq<byte>, variant: Variant)
    requires HasTableHeader(mem)
    requires |sha1| == SHA1_DIGEST_SIZE && |sha256| == SHA256_DIGEST_SIZE
    requires InitAccepts(mem, family, start, slbSize, variant)
    ensures var at := Search(mem, None, SLR_ENTRY_LOG_INFO, variant).at;
            forall y :: Reaches(mem, at, y) ==> TagAt(mem, y) != Some(SLR_ENTRY_LOG_INFO)
    ensures var info := ReadLogInfo(mem, Search(mem, None, SLR_ENTRY_LOG_INFO, variant).at);
            && (info.addr + info.size < start || start + slbSize < info.addr)
            && EventLogInit(mem, family, start, slbSize, sha1, sha256, variant)
                 == Initialised(0, InitWrite(family, info, sha1, sha256).log)
  {
    var at := Search(mem, None, SLR_ENTRY_LOG_INFO, variant).at;
    forall y | Reaches(mem, at, y)
      ensures TagAt(mem, y) != Some(SLR_ENTRY_LOG_INFO)
    {
      ScanNullMeansAbsent(mem, at, SLR_ENTRY_LOG_INFO, variant, y);
    }
  }

  /** event_log_init as written and as corrected differ only where the
      written walker reads through NULL, in either of its two lookups. */
  lemma EventLogInitVariantsDiffer(mem: seq<byte>, family: Family, start: u64, slbSize: nat,
                                   sha1: seq<byte>, sha256: seq<byte>)
    requires HasTableHeader(mem)
    requires |sha1| == SHA1_DIGEST_SIZE && |sha256| == SHA256_DIGEST_SIZE
    ensures EventLogInit(mem, family, start, slbSize, sha1, sha256, AsWritten)
              != EventLogInit(mem, family, start, slbSize, sha1, sha256, Corrected) ==>
            EventLogInit(mem, family, start, slbSize, sha1, sha256, AsWritten) == InitCrashed(NullRead)
  {
    var first := Search(mem, None, SLR_ENTRY_LOG_INFO, AsWritten);
    assert NextEntryWithTagAsWritten(mem, None, SLR_ENTRY_LOG_INFO) == first;
    if first.Found? {
      assert NextEntryWithTagAsWritten(mem, Some(first.at), SLR_ENTRY_LOG_INFO)
               == Search(mem, Some(first.at), SLR_ENTRY_LOG_INFO, AsWritten);
    }
  }

  /** When the only LOG_INFO entry is the last one the walk can reach and no
      END marker follows it, the second lookup as written reads the tag
      through the NULL next_entry returns, so event_log_init never returns;
      the corrected lookup answers NULL there and the checks go on. */
  lemma LastLogInfoCrashes(mem: seq<byte>, family: Family, start: u64, slbSize: nat,
                           sha1: seq<byte>, sha256: seq<byte>)
    requires HasTableHeader(mem)
    requires |sha1| == SHA1_DIGEST_SIZE && |sha256| == SHA256_DIGEST_SIZE
    requires Search(mem, None, SLR_ENTRY_LOG_INFO, Corrected).Found?
    requires NextEntry(mem, Search(mem, None, SLR_ENTRY_LOG_INFO, Corrected).at) == Null
    ensures EventLogInit(mem, family, start, slbSize, sha1, sha256, AsWritten) == InitCrashed(NullRead)
    ensures Search(mem, Some(Search(mem, None, SLR_ENTRY_LOG_INFO, Corrected).at), SLR_ENTRY_LOG_INFO, Corrected) == Null
  {
    var at := Search(mem, None, SLR_ENTRY_LOG_INFO, Corrected).at;
    assert Search(mem, None, SLR_ENTRY_LOG_INFO, AsWritten) == Found(at) by {
      assert NextEntryWithTagAsWritten(mem, None, SLR_ENTRY_LOG_INFO) == Search(mem, None, SLR_ENTRY_LOG_INFO, AsWritten);
    }
    assert Search(mem, Some(at), SLR_ENTRY_LOG_INFO, AsWritten) == Crashed(NullRead);
  }
}

=== FILE: header_tool.dfy ===
/** The PSP header patcher (header_tool.py).

    The tool views a firmware image as little-endian 32-bit words. The top 16
    bits of word 0 hold the length of the signed region; the tool rounds that
    length up to a multiple of 16 (re-encoding word 0 when it had to round),
    and then writes four words of the header that follows the signed region:
    the magic "$AS1", the signed size, the security patch level and the image
    version. Every Python exception the patch can raise happens before the
    output file is opened, so a failure means no output at all: `Patch`
    returns either the whole new image or the error. */
module HeaderTool {
  import opened Results
  import opened Bytes

  const HEADER_VERSION: u32 := 0x31534124
  const HEADER_VERSION_OFFSET_IN_BYTES: nat := 0x10
  const SIZEFWSIGNED_HEADER_OFFSET_IN_BYTES: nat := 0x14
  const SECURITY_PATCH_LEVEL_HEADER_OFFSET_IN_BYTES: nat := 0x4C
  const IMAGEVERSION_HEADER_OFFSET_IN_BYTES: nat := 0x60

  /** The image size the tool expects; any other size only prints a message. */
  const EXPECTED_IMAGE_BYTES: nat := 64 * 1024

  /** Word indices of the four header fields, relative to the first header word. */
  const MAGIC_WORD: nat := HEADER_VERSION_OFFSET_IN_BYTES / 4
  const SIZE_WORD: nat := SIZEFWSIGNED_HEADER_OFFSET_IN_BYTES / 4
  const SPL_WORD: nat := SECURITY_PATCH_LEVEL_HEADER_OFFSET_IN_BYTES / 4
  const VERSION_WORD: nat := IMAGEVERSION_HEADER_OFFSET_IN_BYTES / 4

  /** The exceptions the patch can raise. */
  datatype Error =
    | NotWholeWords                 // array.frombytes: length not a multiple of 4
    | EmptyImage                    // image[0] on an empty array
    | SizeFieldOverflow             // the re-encoded word 0 does not fit in 32 bits
    | IndexOutOfRange(index: nat)   // a header word lies past the end of the image
    | ValueOutOfRange(value: int)   // a header value is negative or wider than 32 bits

  /** The bytes written to the output file, and whether the size message was printed. */
  datatype Patched = Patched(image: seq<byte>, sizeWarning: bool)

  /** The word view of a byte buffer (array('I').frombytes). */
  function ToWords(bytes: seq<byte>): (w: seq<u32>)
    requires |bytes| % 4 == 0
    ensures |w| == |bytes| / 4
    ensures forall i :: 0 <= i < |w| ==> w[i] == DecodeLE(bytes[4 * i..4 * i + 4])
    decreases |bytes|
  {
    if |bytes| == 0 then []
    else
      Pow256Widths();
      var rest := ToWords(bytes[4..]);
      assert forall i :: 1 <= i < |bytes| / 4 ==>
          bytes[4..][4 * (i - 1)..4 * (i - 1) + 4] == bytes[4 * i..4 * i + 4];
      [DecodeLE(bytes[..4])] + rest
  }

  /** The bytes of a word array (what array.write puts in the file). */
  function FromWords(words: seq<u32>): (bytes: seq<byte>)
    ensures |bytes| == 4 * |words|
    ensures forall i :: 0 <= i < |words| ==> bytes[4 * i..4 * i + 4] == EncodeLE(words[i], 4)
  {
    if |words| == 0 then [] else EncodeLE(words[0], 4) + FromWords(words[1..])
  }

  lemma {:induction false} ToWordsFromWords(words: seq<u32>)
    ensures ToWords(FromWords(words)) == words
  {
    if |words| > 0 {
      var b := FromWords(words);
      Pow256Widths();
      assert b[..4] == EncodeLE(words[0], 4);
      DecodeEncode(words[0], 4);
      assert b[4..] == FromWords(words[1..]);
      ToWordsFromWords(words[1..]);
    }
  }

  lemma {:induction false} FromWordsToWords(bytes: seq<byte>)
    requires |bytes| % 4 == 0
    ensures FromWords(ToWords(bytes)) == bytes
    decreases |bytes|
  {
    if |bytes| > 0 {
      var w := ToWords(bytes);
      assert w[1..] == ToWords(bytes[4..]);
      EncodeDecode(bytes[..4]);
      FromWordsToWords(bytes[4..]);
      assert bytes == bytes[..4] + bytes[4..];
    }
  }

  /** Loading the input file: fails unless the bytes make whole words. */
  function Load(bytes: seq<byte>): (r: Result<seq<u32>, Error>)
    ensures r.Err? <==> |bytes| % 4 != 0
    ensures r.Ok? ==> |r.value| * 4 == |bytes| && FromWords(r.value) == bytes
  {
    if |bytes| % 4 != 0 then Err(NotWholeWords)
    else
      FromWordsToWords(bytes);
      Ok(ToWords(bytes))
  }

  /** The signed-region length held in the top 16 bits of word 0 (`>> 16`). */
  function SignedLength(w0: u32): (r: u16)
    ensures w0 == r * TWO_16 + w0 % TWO_16
  {
    w0 / TWO_16
  }

  /** The signed length rounded up to a multiple of 16: the least multiple of
      16 that is not below `raw`. */
  function AlignUp16(raw: nat): (r: nat)
    ensures r % 16 == 0
    ensures raw <= r < raw + 16
  {
    if raw % 16 != 0 then raw + (16 - raw % 16) else raw
  }

  /** Word 0 after realignment, `(w0 & 0xFF) | (aligned << 16)`: the low byte
      survives, bits 8-15 are cleared and the top bits hold the aligned size.
      The value can need more than 32 bits; the caller checks. */
  function ReencodeWord0(w0: u32, aligned: nat): (r: nat)
    ensures r % 256 == w0 % 256
    ensures (r / 256) % 256 == 0
    ensures r / TWO_16 == aligned
  {
    var r := w0 % 256 + aligned * TWO_16;
    DivModByte(w0 % 256, aligned * 256);
    DivModByte(0, aligned);
    DivModHalf(w0 % 256, aligned);
    r
  }

  /** One element assignment `image[i] = v` on an array of unsigned 32-bit words. */
  function Store(words: seq<u32>, i: nat, v: int): (r: Result<seq<u32>, Error>)
    ensures r.Ok? <==> i < |words| && 0 <= v < TWO_32
    ensures i >= |words| ==> r == Err(IndexOutOfRange(i))
    ensures r.Ok? ==> |r.value| == |words| && r.value[i] == v
    ensures r.Ok? ==> forall j :: 0 <= j < |words| && j != i ==> r.value[j] == words[j]
  {
    if i >= |words| then Err(IndexOutOfRange(i))
    else if !(0 <= v < TWO_32) then Err(ValueOutOfRange(v))
    else Ok(words[i := v])
  }

  /** The four header writes, in the order of the source: magic, size,
      version, patch level. */
  function WriteHeader(image: seq<u32>, aligned: nat, version: int, spl: int): (r: Result<seq<u32>, Error>)
    ensures r.Ok? <==> && aligned / 4 + VERSION_WORD < |image|
                       && aligned < TWO_32 && 0 <= version < TWO_32 && 0 <= spl < TWO_32
    ensures aligned / 4 + MAGIC_WORD >= |image| ==> r == Err(IndexOutOfRange(aligned / 4 + MAGIC_WORD))
    ensures r.Ok? ==> && |r.value| == |image|
                      && r.value[aligned / 4 + MAGIC_WORD] == HEADER_VERSION
                      && r.value[aligned / 4 + SIZE_WORD] == aligned
                      && r.value[aligned / 4 + VERSION_WORD] == version
                      && r.value[aligned / 4 + SPL_WORD] == spl
    ensures r.Ok? ==> forall j :: 0 <= j < |image| && !IsHeaderWord(aligned / 4, j) ==> r.value[j] == image[j]
  {
    var base := aligned / 4;
    var s1 :- Store(image, base + MAGIC_WORD, HEADER_VERSION);
    var s2 :- Store(s1, base + SIZE_WORD, aligned);
    var s3 :- Store(s2, base + VERSION_WORD, version);
    Store(s3, base + SPL_WORD, spl)
  }

  /** Whether word j is one of the four header words written past `base`. */
  predicate IsHeaderWord(base: nat, j: nat) {
    j == base + MAGIC_WORD || j == base + SIZE_WORD || j == base + SPL_WORD || j == base + VERSION_WORD
  }

  /** What a successful patch of `words` leaves behind: word 0 carries the
      aligned length, the four header words carry their values, and every
      other word is as it was. */
  ghost predicate PatchedLayout(words: seq<u32>, out: seq<u32>, version: int, spl: int)
    requires |words| > 0
  {
    var raw := SignedLength(words[0]);
    var aligned := AlignUp16(raw);
    var base := aligned / 4;
    && |out| == |words|
    && SignedLength(out[0]) == aligned
    && (raw % 16 == 0 ==> out[0] == words[0])
    && (raw % 16 != 0 ==> out[0] % 256 == words[0] % 256 && (out[0] / 256) % 256 == 0)
    && base + VERSION_WORD < |out|
    && out[base + MAGIC_WORD] == HEADER_VERSION
    && out[base + SIZE_WORD] == aligned
    && out[base + SPL_WORD] == spl
    && out[base + VERSION_WORD] == version
    && (forall j :: 0 < j < |out| && !IsHeaderWord(base, j) ==> out[j] == words[j])
  }

  /** The patch on the word view (lines 63-81). */
  function PatchWords(words: seq<u32>, version: int, spl: int): (r: Result<seq<u32>, Error>)
    ensures |words| == 0 <==> r == Err(EmptyImage)
    ensures r.Ok? ==> PatchedLayout(words, r.value, version, spl)
  {
    if |words| == 0 then Err(EmptyImage)
    else
      var raw := SignedLength(words[0]);
      var aligned := AlignUp16(raw);
      var w0: int := if raw % 16 != 0 then ReencodeWord0(words[0], aligned) else words[0];
      if w0 >= TWO_32 then Err(SizeFieldOverflow)
      else
        var r := WriteHeader(words[0 := w0], aligned, version, spl);
        assert r.Ok? ==> PatchedLayout(words, r.value, version, spl);
        r
  }

  /** The whole run from input bytes to output bytes (lines 59-87). */
  function Patch(bytes: seq<byte>, version: int, spl: int): (r: Result<Patched, Error>)
    ensures |bytes| % 4 != 0 ==> r == Err(NotWholeWords)
    ensures |bytes| == 0 ==> r == Err(EmptyImage)
    ensures r.Ok? ==> |r.value.image| == |bytes|
    ensures r.Ok? ==> (r.value.sizeWarning <==> |bytes| != EXPECTED_IMAGE_BYTES)
    ensures r.Ok? ==> && |bytes| % 4 == 0 && |bytes| > 0 && |r.value.image| % 4 == 0
                      && PatchedLayout(ToWords(bytes), ToWords(r.value.image), version, spl)
  {
    var words :- Load(bytes);
    var out :- PatchWords(words, version, spl);
    ToWordsFromWords(words);
    ToWordsFromWords(out);
    Ok(Patched(FromWords(out), |bytes| != EXPECTED_IMAGE_BYTES))
  }

  /** Exactly when the word-level patch succeeds: the aligned length must fit
      the 16-bit field (a length above 0xFFF0 rounds to 0x10000, which makes
      word 0 overflow), the last header word must lie inside the image, and
      version and patch level must be 32-bit values. The image size is not
      among the conditions. */
  lemma PatchWordsSucceedsIff(words: seq<u32>, version: int, spl: int)
    requires |words| > 0
    ensures AlignUp16(SignedLength(words[0])) == TWO_16 ==>
              PatchWords(words, version, spl) == Err(SizeFieldOverflow)
    ensures PatchWords(words, version, spl).Ok? <==>
              && AlignUp16(SignedLength(words[0])) < TWO_16
              && AlignUp16(SignedLength(words[0])) / 4 + VERSION_WORD < |words|
              && 0 <= version < TWO_32
              && 0 <= spl < TWO_32
  {
    var raw := SignedLength(words[0]);
    var aligned := AlignUp16(raw);
    assert aligned <= TWO_16;
    if raw % 16 != 0 {
      var w0 := ReencodeWord0(words[0], aligned);
      assert w0 < TWO_32 <==> aligned < TWO_16;
    }
  }

  /** The same conditions on the input bytes, with load failure first. */
  lemma PatchSucceedsIff(bytes: seq<byte>, version: int, spl: int)
    ensures Patch(bytes, version, spl).Ok? <==>
              && |bytes| % 4 == 0
              && |bytes| >= 4
              && AlignUp16(DecodeLE(bytes[..4]) / TWO_16) < TWO_16
              && AlignUp16(DecodeLE(bytes[..4]) / TWO_16) / 4 + VERSION_WORD < |bytes| / 4
              && 0 <= version < TWO_32
              && 0 <= spl < TWO_32
  {
    if |bytes| % 4 == 0 && |bytes| >= 4 {
      var words := ToWords(bytes);
      assert words[0] == DecodeLE(bytes[..4]);
      PatchWordsSucceedsIff(words, version, spl);
    }
  }

  /** Storing a word's own value changes nothing. */
  lemma StoreSame(words: seq<u32>, i: nat)
    requires i < |words|
    ensures Store(words, i, words[i]) == Ok(words)
  {
    assert words[i := words[i]] == words;
  }

  /** The header writes are no-ops on an image that already carries them. */
  lemma WriteHeaderFixedPoint(out: seq<u32>, aligned: nat, version: int, spl: int)
    requires aligned / 4 + VERSION_WORD < |out|
    requires out[aligned / 4 + MAGIC_WORD] == HEADER_VERSION
    requires out[aligned / 4 + SIZE_WORD] == aligned
    requires out[aligned / 4 + SPL_WORD] == spl
    requires out[aligned / 4 + VERSION_WORD] == version
    ensures WriteHeader(out, aligned, version, spl) == Ok(out)
  {
    var base := aligned / 4;
    StoreSame(out, base + MAGIC_WORD);
    StoreSame(out, base + SIZE_WORD);
    StoreSame(out, base + VERSION_WORD);
    StoreSame(out, base + SPL_WORD);
  }

  /** A patched word image is a fixed point of the word-level patch. */
  lemma PatchWordsFixedPoint(words: seq<u32>, out: seq<u32>, version: int, spl: int)
    requires |words| > 0
    requires PatchedLayout(words, out, version, spl)
    ensures PatchWords(out, version, spl) == Ok(out)
  {
    var aligned := AlignUp16(SignedLength(words[0]));
    assert SignedLength(out[0]) == aligned;
    assert AlignUp16(aligned) == aligned;
    assert out[0 := out[0]] == out;
    WriteHeaderFixedPoint(out, aligned, version, spl);
  }

  /** Running the tool on its own output with the same version and patch
      level reproduces that output: the length is already aligned, so word 0
      stays, and the four writes store the values already there. */
  lemma PatchIdempotent(bytes: seq<byte>, version: int, spl: int)
    requires Patch(bytes, version, spl).Ok?
    ensures Patch(Patch(bytes, version, spl).value.image, version, spl) == Patch(bytes, version, spl)
  {
    var words := Load(bytes).value;
    var out := PatchWords(words, version, spl).value;
    var image := FromWords(out);
    assert Patch(bytes, version, spl) == Ok(Patched(image, |bytes| != EXPECTED_IMAGE_BYTES));
    ToWordsFromWords(out);
    assert Load(image) == Ok(out);
    PatchWordsFixedPoint(words, out, version, spl);
  }
}

=== FILE: launch.dfy ===
/** The dynamic-launch hand-off of main.c.

    Both entry paths (skl_main on the TPM build, amdsl_launch on the AMDSL
    build) look up the DL_INFO entry of the SLRT, refuse it unless its header
    and fields describe a GRUB-launched image lying wholly below 4 GiB with
    its entry point inside it, and then return two values to the assembly
    stub: the entry address `dlme_base + dlme_entry` and the argument
    `bl_context.context`. A refusal reboots the machine.

    The check as the source writes it adds `dlme_base + dlme_size` in 64-bit
    arithmetic, where the sum can wrap; `AcceptsAsWritten` keeps that and
    `Accepts` is the intended check. The lookup, the check and both hand-offs
    take a `Variant`: `AsWritten` is the program as the source writes it,
    `Corrected` has the walker's NULL check and the unwrapped sum. */
module Launch {
  import opened Results
  import opened Bytes
  import opened Slrt
  import Psp
  import EventLog

  /** sizeof(struct slr_entry_dl_info), and the offsets of the fields read. */
  const DL_INFO_SIZE: nat := 64
  const DLME_SIZE_FIELD: nat := 16
  const DLME_BASE_FIELD: nat := 24
  const DLME_ENTRY_FIELD: nat := 32
  const BOOTLOADER_FIELD: nat := 40
  const CONTEXT_FIELD: nat := 48

  const FOUR_GIB: nat := 0x1_0000_0000

  /** The fields of struct slr_entry_dl_info the hand-off reads. */
  datatype DlInfo = DlInfo(dlmeSize: u64, dlmeBase: u64, dlmeEntry: u64, bootloader: u16, context: u64)

  /** The DL_INFO entry at offset `at`, decoded from its packed layout. */
  function ReadDlInfo(mem: seq<byte>, at: nat): (info: DlInfo)
    requires at + DL_INFO_SIZE <= |mem|
  {
    Pow256Widths();
    DlInfo(ReadLE(mem, at + DLME_SIZE_FIELD, 8), ReadLE(mem, at + DLME_BASE_FIELD, 8),
           ReadLE(mem, at + DLME_ENTRY_FIELD, 8), ReadLE(mem, at + BOOTLOADER_FIELD, 2),
           ReadLE(mem, at + CONTEXT_FIELD, 8))
  }

  /** Each field ReadDlInfo decodes is the little-endian value of the bytes at
      its packed offset: writing the value back gives those bytes. */
  lemma ReadDlInfoFields(mem: seq<byte>, at: nat)
    requires at + DL_INFO_SIZE <= |mem|
    ensures var info := ReadDlInfo(mem, at);
            && EncodeLE(info.dlmeSize, 8) == Slice(mem, at + DLME_SIZE_FIELD, 8)
            && EncodeLE(info.dlmeBase, 8) == Slice(mem, at + DLME_BASE_FIELD, 8)
            && EncodeLE(info.dlmeEntry, 8) == Slice(mem, at + DLME_ENTRY_FIELD, 8)
            && EncodeLE(info.bootloader, 2) == Slice(mem, at + BOOTLOADER_FIELD, 2)
            && EncodeLE(info.context, 8) == Slice(mem, at + CONTEXT_FIELD, 8)
  {
    EncodeDecode(Slice(mem, at + DLME_SIZE_FIELD, 8));
    EncodeDecode(Slice(mem, at + DLME_BASE_FIELD, 8));
    EncodeDecode(Slice(mem, at + DLME_ENTRY_FIELD, 8));
    EncodeDecode(Slice(mem, at + BOOTLOADER_FIELD, 2));
    EncodeDecode(Slice(mem, at + CONTEXT_FIELD, 8));
  }

  /** The field checks of main.c as written: `dlme_base + dlme_size` is a
      u64 sum and wraps modulo 2^64. */
  predicate AcceptsAsWritten(info: DlInfo) {
    && info.dlmeBase < FOUR_GIB
    && (info.dlmeBase + info.dlmeSize) % TWO_64 < FOUR_GIB
    && info.dlmeEntry < info.dlmeSize
    && info.bootloader == SLR_BOOTLOADER_GRUB
  }

  /** The field checks as intended: the image [base, base + size) ends below
      4 GiB, counted without wrap-around. */
  predicate Accepts(info: DlInfo) {
    && info.dlmeBase < FOUR_GIB
    && info.dlmeBase + info.dlmeSize < FOUR_GIB
    && info.dlmeEntry < info.dlmeSize
    && info.bootloader == SLR_BOOTLOADER_GRUB
  }

  predicate AcceptsUnder(variant: Variant, info: DlInfo) {
    if variant == AsWritten then AcceptsAsWritten(info) else Accepts(info)
  }

  /** What the intended check guarantees: the entry point lies inside the
      image and the whole image lies below 4 GiB, so the 32-bit registers the
      stub jumps through hold the entry address exactly. */
  lemma AcceptedImageBelow4G(info: DlInfo)
    requires Accepts(info)
    ensures info.dlmeBase <= info.dlmeBase + info.dlmeEntry < info.dlmeBase + info.dlmeSize < FOUR_GIB
    ensures info.dlmeSize < FOUR_GIB
    ensures (info.dlmeBase + info.dlmeEntry) % TWO_64 == info.dlmeBase + info.dlmeEntry
    ensures MeasuredLength(info) == info.dlmeSize && MeasuredEntryOffset(info) == info.dlmeEntry
  {
  }

  /** The checks as written accept a size so large that base + size wraps
      to a small number: the entry offset then lies beyond 4 GiB, so the
      entry address does not fit the 32-bit register it is returned in. What
      skl_main measures is no guard: the u32 entry offset it hashes is 0 and
      the u32 length covers less than the image. */
  lemma WrappedSizeAccepted()
    ensures var info := DlInfo(0xFFFF_FFFF_FFFF_F010, 0x1000, 0x1_0000_0000, SLR_BOOTLOADER_GRUB, 0);
            && AcceptsAsWritten(info)
            && !Accepts(info)
            && info.dlmeBase + info.dlmeEntry >= FOUR_GIB
            && MeasuredEntryOffset(info) == 0
            && MeasuredLength(info) == 0xFFFF_F010
  {
  }

  /** The two checks differ only when base + size overflows 64 bits. */
  lemma AcceptsAgreeWithoutWrap(info: DlInfo)
    ensures AcceptsAsWritten(info) != Accepts(info) ==>
              AcceptsAsWritten(info) && info.dlmeBase + info.dlmeSize >= TWO_64
  {
  }

  /** The intended check is the written one restricted to sums that do not
      wrap; the written check also passes a true sum in [2^64, 2^64 + 4 GiB). */
  lemma ChecksWithoutModulus(info: DlInfo)
    ensures Accepts(info) <==> AcceptsAsWritten(info) && info.dlmeBase + info.dlmeSize < TWO_64
    ensures AcceptsAsWritten(info) <==>
              && info.dlmeBase < FOUR_GIB
              && (info.dlmeBase + info.dlmeSize < FOUR_GIB
                  || TWO_64 <= info.dlmeBase + info.dlmeSize < TWO_64 + FOUR_GIB)
              && info.dlmeEntry < info.dlmeSize
              && info.bootloader == SLR_BOOTLOADER_GRUB
  {
  }

  /** The result of looking up and checking DL_INFO: the accepted entry and
      its fields, a refusal (reboot), or a walk that gives no answer. */
  datatype Check = Rejected | Accepted(at: nat, info: DlInfo) | Stuck(why: Crash)

  /** The lookup and the condition of main.c: NULL, a header size other than
      sizeof(*dl_info), an entry running past end_of_slrt(), or failing field
      checks all refuse. The entry is read whole once its header has passed. */
  function CheckDlInfo(mem: seq<byte>, variant: Variant): (r: Check)
    requires HasTableHeader(mem)
    ensures r.Accepted? ==> Search(mem, None, SLR_ENTRY_DL_INFO, variant) == Found(r.at)
    ensures r.Accepted? ==> TagAt(mem, r.at) == Some(SLR_ENTRY_DL_INFO) && SizeAt(mem, r.at) == Some(DL_INFO_SIZE as u16)
    ensures r.Accepted? ==> r.at + DL_INFO_SIZE <= EndOfSlrt(mem) && r.at + DL_INFO_SIZE <= |mem|
    ensures r.Accepted? ==> r.info == ReadDlInfo(mem, r.at) && AcceptsUnder(variant, r.info)
    ensures r == Stuck(NullRead) ==> variant == AsWritten
  {
    match Search(mem, None, SLR_ENTRY_DL_INFO, variant)
    case Crashed(why) => Stuck(why)
    case Null => Rejected
    case Found(at) =>
      match SizeAt(mem, at)
      case None => Stuck(Unmapped)
      case Some(size) =>
        if size != DL_INFO_SIZE || EndOfSlrt(mem) < at + DL_INFO_SIZE then Rejected
        else if |mem| < at + DL_INFO_SIZE then Stuck(Unmapped)
        else
          var info := ReadDlInfo(mem, at);
          if AcceptsUnder(variant, info) then Accepted(at, info) else Rejected
  }

  /** The check refuses exactly the tables whose DL_INFO lookup answers NULL,
      or whose entry has the wrong size, overruns the table, or fails the
      field checks; it accepts every other table it can read. */
  lemma CheckDlInfoRejectsIff(mem: seq<byte>, variant: Variant)
    requires HasTableHeader(mem)
    ensures var w := Search(mem, None, SLR_ENTRY_DL_INFO, variant);
            CheckDlInfo(mem, variant) == Rejected <==>
              || w == Null
              || (&& w.Found? && SizeAt(mem, w.at).Some?
                  && (|| SizeAt(mem, w.at).value != DL_INFO_SIZE
                      || EndOfSlrt(mem) < w.at + DL_INFO_SIZE
                      || (w.at + DL_INFO_SIZE <= |mem| && !AcceptsUnder(variant, ReadDlInfo(mem, w.at)))))
    ensures var w := Search(mem, None, SLR_ENTRY_DL_INFO, variant);
            w.Found? && w.at + DL_INFO_SIZE <= EndOfSlrt(mem) && w.at + DL_INFO_SIZE <= |mem|
            && SizeAt(mem, w.at) == Some(DL_INFO_SIZE as u16) && AcceptsUnder(variant, ReadDlInfo(mem, w.at))
            ==> CheckDlInfo(mem, variant) == Accepted(w.at, ReadDlInfo(mem, w.at))
  {
  }

  /** What the hand-off returns to the assembly stub: a reboot, a jump to
      `entry` with `arg`, or no return because the table walk never ends. */
  datatype Outcome = Reboot | Jump(entry: u64, arg: u64) | Hang(why: Crash)

  /** The DL_INFO lookup and check of skl_main (from main.c:347) and of
      amdsl_launch (from main.c:260), then their return values:
      `dlme_base + dlme_entry` (a u64 sum) and `bl_context.context`. */
  function HandOff(mem: seq<byte>, variant: Variant): (r: Outcome)
    requires HasTableHeader(mem)
    ensures r.Jump? <==> CheckDlInfo(mem, variant).Accepted?
    ensures r == Reboot <==> CheckDlInfo(mem, variant) == Rejected
  {
    match CheckDlInfo(mem, variant)
    case Rejected => Reboot
    case Stuck(why) => Hang(why)
    case Accepted(_, info) => Jump((info.dlmeBase + info.dlmeEntry) % TWO_64, info.context)
  }

  /** skl_main on the TPM build, from the event log set-up at main.c:337 on.
      Its result is ignored, but a lookup there that reads through NULL or
      loops stops the loader before the hand-off; otherwise skl_main goes on
      to the DL_INFO check. `family` is the TPM's, and the digests are those
      of the loader image. */
  function SklMain(mem: seq<byte>, family: EventLog.Family, start: u64, slbSize: nat,
                   sha1: seq<byte>, sha256: seq<byte>, variant: Variant): (r: Outcome)
    requires HasTableHeader(mem)
    requires |sha1| == EventLog.SHA1_DIGEST_SIZE && |sha256| == EventLog.SHA256_DIGEST_SIZE
    ensures r.Jump? <==> && EventLog.EventLogInit(mem, family, start, slbSize, sha1, sha256, variant).Initialised?
                         && CheckDlInfo(mem, variant).Accepted?
    ensures r == Reboot <==> && EventLog.EventLogInit(mem, family, start, slbSize, sha1, sha256, variant).Initialised?
                             && CheckDlInfo(mem, variant) == Rejected
    ensures r.Jump? ==> r == HandOff(mem, variant)
    ensures r == Hang(NullRead) ==> variant == AsWritten
  {
    match EventLog.EventLogInit(mem, family, start, slbSize, sha1, sha256, variant)
    case InitCrashed(why) => Hang(why)
    case Initialised(_, _) => HandOff(mem, variant)
  }

  /** skl_main with the corrected walker and check: a jump goes to an address
      inside the DLME image, below 4 GiB, with the bootloader's context as the
      argument, after measuring the whole image and the exact entry offset;
      and no walk reads through NULL. */
  lemma SklMainJumpsIntoImage(mem: seq<byte>, family: EventLog.Family, start: u64, slbSize: nat,
                              sha1: seq<byte>, sha256: seq<byte>)
    requires HasTableHeader(mem)
    requires |sha1| == EventLog.SHA1_DIGEST_SIZE && |sha256| == EventLog.SHA256_DIGEST_SIZE
    ensures SklMain(mem, family, start, slbSize, sha1, sha256, Corrected) != Hang(NullRead)
    ensures SklMain(mem, family, start, slbSize, sha1, sha256, Corrected).Jump? ==>
              var info := CheckDlInfo(mem, Corrected).info;
              var r := SklMain(mem, family, start, slbSize, sha1, sha256, Corrected);
              && info.dlmeBase <= r.entry < info.dlmeBase + info.dlmeSize < FOUR_GIB
              && r.entry - info.dlmeBase == info.dlmeEntry
              && r.arg == info.context
              && MeasuredLength(info) == info.dlmeSize
              && MeasuredEntryOffset(info) == info.dlmeEntry
  {
    var r := SklMain(mem, family, start, slbSize, sha1, sha256, Corrected);
    if r.Jump? {
      assert r == HandOff(mem, Corrected);
      AcceptedImageBelow4G(CheckDlInfo(mem, Corrected).info);
    }
  }

  /** The length `extend_pcr` hashes when skl_main measures the image: its
      `size` parameter is a u32, so `dlme_size` is truncated to 32 bits. */
  function MeasuredLength(info: DlInfo): (n: u32)
    ensures n <= info.dlmeSize
    ensures info.dlmeSize < TWO_32 ==> n == info.dlmeSize
  {
    info.dlmeSize % TWO_32
  }

  /** The entry offset skl_main measures: `entry_offset` is a u32, so
      `dlme_entry` is truncated to 32 bits before it is hashed. */
  function MeasuredEntryOffset(info: DlInfo): (n: u32)
    ensures n <= info.dlmeEntry
    ensures info.dlmeEntry < TWO_32 ==> n == info.dlmeEntry
  {
    info.dlmeEntry % TWO_32
  }

  /** On an entry the written check accepts only because base + size wrapped,
      the range `extend_pcr` hashes, `[base, base + dlme_size mod 2^32)`,
      reaches 4 GiB: it ends exactly 4 GiB past where the wrapped sum landed. */
  lemma WrappedMeasurementReaches4G(info: DlInfo)
    requires AcceptsAsWritten(info) && info.dlmeBase + info.dlmeSize >= TWO_64
    ensures info.dlmeBase + MeasuredLength(info) == info.dlmeBase + info.dlmeSize - TWO_64 + FOUR_GIB
    ensures info.dlmeBase + MeasuredLength(info) >= FOUR_GIB
  {
    var k := info.dlmeBase + info.dlmeSize - TWO_64;
    assert 0 <= k < info.dlmeBase;
    assert info.dlmeSize == (TWO_32 - 1) * TWO_32 + (k - info.dlmeBase + TWO_32);
  }

  /** skl_main exactly as written, once event_log_init has returned: a jump
      passes the bootloader's context and starts at or above a base below
      4 GiB; when base + size does not wrap, it lands inside the image as
      intended. When it wraps, the size is at least 2^64 - 2^32, so the
      measurement covers only `dlme_size mod 2^32` bytes of it, a range that
      reaches 4 GiB. Whether skl_main then jumps depends on those reads (and
      the hexdump at the entry) not faulting, which the model assumes. */
  lemma SklMainAsWrittenJump(mem: seq<byte>, family: EventLog.Family, start: u64, slbSize: nat,
                             sha1: seq<byte>, sha256: seq<byte>)
    requires HasTableHeader(mem)
    requires |sha1| == EventLog.SHA1_DIGEST_SIZE && |sha256| == EventLog.SHA256_DIGEST_SIZE
    ensures SklMain(mem, family, start, slbSize, sha1, sha256, AsWritten).Jump? ==>
              var info := CheckDlInfo(mem, AsWritten).info;
              var r := SklMain(mem, family, start, slbSize, sha1, sha256, AsWritten);
              && r.arg == info.context
              && info.dlmeBase < FOUR_GIB && info.dlmeEntry < info.dlmeSize
              && (info.dlmeBase + info.dlmeSize < TWO_64 ==>
                    && info.dlmeBase <= r.entry < info.dlmeBase + info.dlmeSize < FOUR_GIB
                    && MeasuredLength(info) == info.dlmeSize
                    && MeasuredEntryOffset(info) == info.dlmeEntry)
              && (info.dlmeBase + info.dlmeSize >= TWO_64 ==>
                    && info.dlmeSize >= TWO_64 - FOUR_GIB
                    && MeasuredLength(info) < info.dlmeSize
                    && info.dlmeBase + MeasuredLength(info) >= FOUR_GIB)
  {
    var r := SklMain(mem, family, start, slbSize, sha1, sha256, AsWritten);
    if r.Jump? {
      assert r == HandOff(mem, AsWritten);
      var info := CheckDlInfo(mem, AsWritten).info;
      AcceptsAgreeWithoutWrap(info);
      if info.dlmeBase + info.dlmeSize < TWO_64 {
        AcceptedImageBelow4G(info);
      } else {
        WrappedMeasurementReaches4G(info);
      }
    }
  }

  /** The hand-off as written and as corrected differ only where the written
      walker reads through NULL, or where the written check accepts a size
      whose sum with the base wraps past 2^64. */
  lemma HandOffVariantsDiffer(mem: seq<byte>)
    requires HasTableHeader(mem)
    ensures HandOff(mem, AsWritten) != HandOff(mem, Corrected) ==>
              || HandOff(mem, AsWritten) == Hang(NullRead)
              || (&& CheckDlInfo(mem, AsWritten).Accepted?
                  && CheckDlInfo(mem, AsWritten).info.dlmeBase + CheckDlInfo(mem, AsWritten).info.dlmeSize >= TWO_64)
  {
    SearchVariantsAgree(mem, None, SLR_ENTRY_DL_INFO);
    var w := Search(mem, None, SLR_ENTRY_DL_INFO, AsWritten);
    if w == Crashed(NullRead) {
      assert CheckDlInfo(mem, AsWritten) == Stuck(NullRead);
    } else {
      assert Search(mem, None, SLR_ENTRY_DL_INFO, Corrected) == w;
      if w.Found? && SizeAt(mem, w.at) == Some(DL_INFO_SIZE as u16)
         && w.at + DL_INFO_SIZE <= EndOfSlrt(mem) && w.at + DL_INFO_SIZE <= |mem| {
        AcceptsAgreeWithoutWrap(ReadDlInfo(mem, w.at));
      } else {
        assert CheckDlInfo(mem, AsWritten) == CheckDlInfo(mem, Corrected);
      }
    }
  }

  /** The AMDSL build's run: the hand-off, whether DRTM launch and the digest
      extension reported success, and the PSP mailbox writes, in order. */
  datatype AmdslRun = AmdslRun(outcome: Outcome, launched: bool, extended: bool, writes: seq<Psp.RegWrite>)

  /** amdsl_launch: the same lookup and check as skl_main (main.c:260-268,
      which has the same u64 sum); on acceptance, DRTM launch and the OSSL
      digest extension of the image, whose results are reported but change
      nothing; then the same return values. `reg` is what the successive reads
      of the PSP's C2PMSG_72 return. */
  function AmdslLaunch(mem: seq<byte>, reg: nat -> u32, variant: Variant): (r: AmdslRun)
    requires HasTableHeader(mem)
    ensures r.outcome == HandOff(mem, variant)
    ensures !r.outcome.Jump? ==> r.writes == [] && !r.launched && !r.extended
  {
    var out := HandOff(mem, variant);
    if !out.Jump? then AmdslRun(out, false, false, [])
    else
      var info := CheckDlInfo(mem, variant).info;
      var launch := Psp.DrtmLaunch(reg, 0);
      var extend := Psp.DrtmExtendOsslDigest(info.dlmeBase, info.dlmeSize, reg, launch.spent);
      AmdslRun(out, launch.ok, extend.ok, launch.writes + extend.writes)
  }

  /** Under the intended check the digest extension never refuses the image
      for its size, so once the launch command has been posted the mailbox
      sees the launch word and then, if ready, the four-word extension. */
  lemma AmdslExtendsAcceptedImage(mem: seq<byte>, reg: nat -> u32)
    requires HasTableHeader(mem)
    requires AmdslLaunch(mem, reg, Corrected).outcome.Jump?
    ensures var info := CheckDlInfo(mem, Corrected).info;
            var launch := Psp.DrtmLaunch(reg, 0);
            && AmdslLaunch(mem, reg, Corrected).extended == Psp.CompletesCleanly(reg, launch.spent)
            && (Psp.ReadyAt(reg, 0) && Psp.ReadyAt(reg, launch.spent) ==>
                  AmdslLaunch(mem, reg, Corrected).writes ==
                    [Psp.RegWrite(Psp.C2pMsg72, 0x40000),
                     Psp.RegWrite(Psp.C2pMsg93, info.dlmeSize), Psp.RegWrite(Psp.C2pMsg94, 0x08000000),
                     Psp.RegWrite(Psp.C2pMsg95, 0), Psp.RegWrite(Psp.C2pMsg72, 0xB0000)])
  {
    AcceptedImageBelow4G(CheckDlInfo(mem, Corrected).info);
  }

  /** amdsl_launch as written, on an image accepted only because base + size
      wrapped: psp.c refuses to extend a size above 0xFFFFFFFF, so the
      extension fails before writing anything and the failure is only
      printed. The modelled outcome is still the jump, assuming the hexdump
      of the entry before the return does not fault. */
  lemma AmdslWrappedSizeStillJumps(mem: seq<byte>, reg: nat -> u32)
    requires HasTableHeader(mem)
    requires CheckDlInfo(mem, AsWritten).Accepted?
    requires CheckDlInfo(mem, AsWritten).info.dlmeBase + CheckDlInfo(mem, AsWritten).info.dlmeSize >= TWO_64
    ensures var info := CheckDlInfo(mem, AsWritten).info;
            var run := AmdslLaunch(mem, reg, AsWritten);
            && !run.extended
            && run.writes == Psp.DrtmLaunch(reg, 0).writes
            && run.outcome == Jump((info.dlmeBase + info.dlmeEntry) % TWO_64, info.context)
  {
    var info := CheckDlInfo(mem, AsWritten).info;
    assert info.dlmeSize > Psp.UINT32_MAX;
  }
}

=== FILE: psp.dfy ===
/** The AMD PSP DRTM mailbox driver (psp.c, constants of include/psp.h).

    The loader recognises the PSP by PCI vendor and device id, derives the
    mailbox addresses from the PSP's MMIO base, and talks to it through four
    32-bit registers: it posts a command word in C2PMSG_72 (arguments in
    C2PMSG_93..95), then polls C2PMSG_72 until the ready bit comes back and
    reads the status from its low 16 bits.

    The device is not modelled; what the registers return is an input. A read
    stream `reg: nat -> u32` gives the value of the n-th read of C2PMSG_72,
    and each operation says at which read number it starts and how many reads
    it spent. Writes are returned as a list, in program order. */
module Psp {
  import opened Results
  import opened Bytes

  const DRTM_MBOX_READY_MASK: u32 := 0x80000000
  const DRTM_MBOX_TMR_INDEX_ID_MASK: u32 := 0x0F000000
  const DRTM_MBOX_CMD_MASK: u32 := 0x00FF0000
  const DRTM_MBOX_STATUS_MASK: u32 := 0x0000FFFF
  const DRTM_MBOX_CMD_SHIFT: nat := 16

  const DRTM_NO_ERROR: u32 := 0x00000000
  const DRTM_CMD_GET_CAPABILITY: nat := 0x1
  const DRTM_CMD_LAUNCH: nat := 0x4
  const DRTM_CMD_EXTEND_OSSL_DIGEST: nat := 0xB

  const DRTM_OSSL_RELOC_ADDR: u64 := 0x08000000
  const UINT32_MAX: nat := 0xFFFFFFFF

  /** drtm_wait_for_psp_ready starts with retry = 50 and pre-decrements, so it
      reads the register at most 49 times. */
  const RETRIES: nat := 50
  const MAX_POLLS: nat := RETRIES - 1

  const C2PMSG_72_OFFSET: nat := 0x10a20
  const C2PMSG_93_OFFSET: nat := 0x10a74
  const C2PMSG_94_OFFSET: nat := 0x10a78
  const C2PMSG_95_OFFSET: nat := 0x10a7c

  datatype PspVersion = PspNone | PspV1 | PspV2 | PspV3

  datatype PciPspDevice = PciPspDevice(vendorId: u16, devId: u16, version: PspVersion)

  /** psp_devs_list: the AMD secure processors the loader knows about. */
  const PSP_DEVS_LIST: seq<PciPspDevice> := [
    PciPspDevice(0x1022, 0x1537, PspNone),
    PciPspDevice(0x1022, 0x1456, PspV1),
    PciPspDevice(0x1022, 0x1468, PspNone),
    PciPspDevice(0x1022, 0x1486, PspV2),
    PciPspDevice(0x1022, 0x15DF, PspV3),
    PciPspDevice(0x1022, 0x1649, PspV2),
    PciPspDevice(0x1022, 0x14CA, PspV3),
    PciPspDevice(0x1022, 0x15C7, PspNone)
  ]

  predicate Matches(d: PciPspDevice, vendorId: u16, devId: u16) {
    d.vendorId == vendorId && d.devId == devId
  }

  /** The index of the first entry of `list` with both ids, or |list| when
      there is none. */
  function FirstMatch(list: seq<PciPspDevice>, vendorId: u16, devId: u16): (i: nat)
    ensures i <= |list|
    ensures i < |list| ==> Matches(list[i], vendorId, devId)
    ensures forall j :: 0 <= j < i ==> !Matches(list[j], vendorId, devId)
  {
    if |list| == 0 then 0
    else if Matches(list[0], vendorId, devId) then 0
    else 1 + FirstMatch(list[1..], vendorId, devId)
  }

  /** What is_drtm_device answers: the first matching entry, unless that
      entry says the device has no PSP. */
  function DrtmDeviceFor(vendorId: u16, devId: u16): (r: Option<PciPspDevice>)
  {
    var i := FirstMatch(PSP_DEVS_LIST, vendorId, devId);
    if i < |PSP_DEVS_LIST| && PSP_DEVS_LIST[i].version != PspNone then Some(PSP_DEVS_LIST[i]) else None
  }

  /** is_drtm_device: a linear search of the table, then the PSP_NONE filter. */
  method IsDrtmDevice(vendorId: u16, devId: u16) returns (psp: Option<PciPspDevice>)
    ensures psp == DrtmDeviceFor(vendorId, devId)
    ensures psp.Some? ==> psp.value in PSP_DEVS_LIST && Matches(psp.value, vendorId, devId)
    ensures psp.Some? ==> psp.value.version != PspNone
  {
    psp := None;
    var i := 0;
    while i < |PSP_DEVS_LIST|
      invariant 0 <= i <= |PSP_DEVS_LIST|
      invariant psp == None
      invariant forall j :: 0 <= j < i ==> !Matches(PSP_DEVS_LIST[j], vendorId, devId)
    {
      if Matches(PSP_DEVS_LIST[i], vendorId, devId) {
        psp := Some(PSP_DEVS_LIST[i]);
        break;
      }
      i := i + 1;
    }
    if psp.Some? && psp.value.version == PspNone {
      psp := None;
    }
  }

  /** The devices is_drtm_device accepts, in closed form: AMD's vendor id and
      one of the five device ids whose entry names a PSP version. */
  lemma DrtmDevices(vendorId: u16, devId: u16)
    ensures DrtmDeviceFor(vendorId, devId).Some? <==>
              vendorId == 0x1022 && devId in {0x1456, 0x1486, 0x15DF, 0x1649, 0x14CA}
  {
    var l := PSP_DEVS_LIST;
    var i := FirstMatch(l, vendorId, devId);
    if i < |l| {
      assert l[i].vendorId == vendorId && l[i].devId == devId;
      if i == 0 {} else if i == 1 {} else if i == 2 {} else if i == 3 {}
      else if i == 4 {} else if i == 5 {} else if i == 6 {} else {}
    } else {
      assert forall j :: 0 <= j < |l| ==> !Matches(l[j], vendorId, devId);
      assert !Matches(l[1], vendorId, devId) && !Matches(l[3], vendorId, devId);
      assert !Matches(l[4], vendorId, devId) && !Matches(l[5], vendorId, devId);
      assert !Matches(l[6], vendorId, devId);
    }
  }

  /** The version each accepted device reports: V1 for 0x1456, V2 for 0x1486
      and 0x1649, V3 for 0x15DF and 0x14CA. */
  lemma DrtmDeviceVersions(vendorId: u16, devId: u16)
    requires DrtmDeviceFor(vendorId, devId).Some?
    ensures DrtmDeviceFor(vendorId, devId).value.version ==
              (if devId == 0x1456 then PspV1 else if devId in {0x1486, 0x1649} then PspV2 else PspV3)
  {
    var l := PSP_DEVS_LIST;
    var i := FirstMatch(l, vendorId, devId);
    assert l[i].devId == devId;
    if i == 0 {} else if i == 1 {} else if i == 2 {} else if i == 3 {}
    else if i == 4 {} else if i == 5 {} else if i == 6 {} else {}
  }

  /** get_psp_bar_addr after its SMN read: the value read with its low 20
      bits cleared (`& 0xFFF00000`), i.e. the 1 MiB-aligned address at or
      just below it. */
  function PspBarAddr(smnValue: u32): (r: u64)
    ensures r % 0x10_0000 == 0
    ensures r <= smnValue < r + 0x10_0000
  {
    smnValue - smnValue % 0x10_0000
  }

  /** The four mailbox registers. */
  datatype Mailbox = C2pMsg72 | C2pMsg93 | C2pMsg94 | C2pMsg95

  /** The 32-bit addresses init_drtm_interface stores in g_psp_drtm. */
  datatype Mailboxes = Mailboxes(c2pmsg72: u32, c2pmsg93: u32, c2pmsg94: u32, c2pmsg95: u32)

  /** init_drtm_interface: only V2 and V3 parts have the DRTM mailbox; each
      address is the base plus a fixed offset, cast to 32 bits. */
  function InitDrtmInterface(base: u64, version: PspVersion): (r: Option<Mailboxes>)
    ensures r.Some? <==> version == PspV2 || version == PspV3
  {
    match version
    case PspV2 | PspV3 =>
      Some(Mailboxes((base + C2PMSG_72_OFFSET) % TWO_32, (base + C2PMSG_93_OFFSET) % TWO_32,
                     (base + C2PMSG_94_OFFSET) % TWO_32, (base + C2PMSG_95_OFFSET) % TWO_32))
    case _ => None
  }

  /** For a base taken from the BAR register the 32-bit cast loses nothing:
      every mailbox lies in the 1 MiB window above the base, C2PMSG_72 at
      0x10a20, and the three argument registers are consecutive words. */
  lemma BarMailboxesExact(smnValue: u32, version: PspVersion)
    requires version == PspV2 || version == PspV3
    ensures var base := PspBarAddr(smnValue);
            var m := InitDrtmInterface(base, version).value;
            && m.c2pmsg72 == base + 0x10a20
            && m.c2pmsg93 == base + 0x10a74
            && m.c2pmsg94 == m.c2pmsg93 + 4
            && m.c2pmsg95 == m.c2pmsg94 + 4
            && base <= m.c2pmsg72 < base + 0x10_0000
            && base <= m.c2pmsg95 < base + 0x10_0000
  {
    var base := PspBarAddr(smnValue);
    assert base <= 0xFFF0_0000;
    assert base + C2PMSG_95_OFFSET < TWO_32;
    assert (base + C2PMSG_72_OFFSET) % TWO_32 == base + C2PMSG_72_OFFSET;
    assert (base + C2PMSG_93_OFFSET) % TWO_32 == base + C2PMSG_93_OFFSET;
    assert (base + C2PMSG_94_OFFSET) % TWO_32 == base + C2PMSG_94_OFFSET;
    assert (base + C2PMSG_95_OFFSET) % TWO_32 == base + C2PMSG_95_OFFSET;
  }

  /** discover_psp once the PCI scan has produced a device: it must be a
      DRTM-capable PSP, the BAR read over SMN must be non-zero after masking,
      and the part must be V2 or V3. `smnValue` is what the SMN read of
      PSP_BASE_ADDR_LO returns. */
  function DiscoverPsp(vendorId: u16, devId: u16, smnValue: u32): (r: Option<Mailboxes>)
    ensures r.Some? <==> && DrtmDeviceFor(vendorId, devId).Some?
                         && DrtmDeviceFor(vendorId, devId).value.version in {PspV2, PspV3}
                         && smnValue >= 0x10_0000
    ensures r.Some? ==> r.value.c2pmsg72 == PspBarAddr(smnValue) + C2PMSG_72_OFFSET
  {
    match DrtmDeviceFor(vendorId, devId)
    case None => None
    case Some(psp) =>
      var bar := PspBarAddr(smnValue);
      if bar == 0 then None
      else
        BarMailboxesExact(smnValue, if psp.version == PspV2 then PspV2 else PspV3);
        InitDrtmInterface(bar, psp.version)
  }

  /** The ready bit (`& DRTM_MBOX_READY_MASK`): bit 31 of the value. */
  predicate Ready(x: u32) {
    x >= 0x8000_0000
  }

  /** Whether the n-th read of C2PMSG_72 shows the ready bit. */
  predicate ReadyAt(reg: nat -> u32, n: nat) {
    Ready(reg(n))
  }

  /** The status field (`& 0xffff`): the low 16 bits. */
  function Status(x: u32): (r: u32)
    ensures r < TWO_16 && (x - r) % TWO_16 == 0
  {
    x % TWO_16
  }

  /** The outcome of polling: whether the ready bit was seen, the status
      reported, and the number of reads spent. */
  datatype Poll = Poll(ready: bool, status: u32, spent: nat)

  /** Polling with at most `left` reads, starting at read number `from`: the
      first read that shows the ready bit ends the poll. */
  function PollReady(reg: nat -> u32, from: nat, left: nat): (p: Poll)
    ensures p.spent <= left
    ensures p.ready ==> p.spent >= 1 && ReadyAt(reg, from + p.spent - 1)
    ensures p.ready ==> p.status == Status(reg(from + p.spent - 1))
    ensures !p.ready ==> p.spent == left && p.status == 0
    ensures forall k :: from <= k < from + p.spent - (if p.ready then 1 else 0) ==> !ReadyAt(reg, k)
    decreases left
  {
    if left == 0 then Poll(false, 0, 0)
    else if ReadyAt(reg, from) then Poll(true, Status(reg(from)), 1)
    else
      var p := PollReady(reg, from + 1, left - 1);
      p.(spent := p.spent + 1)
  }

  /** drtm_wait_for_psp_ready, loop for loop: at most 49 reads; success as
      soon as the ready bit shows, with the low 16 bits of that read as the
      status; failure if it never shows. */
  method WaitForPspReady(reg: nat -> u32, from: nat) returns (ok: bool, status: u32, spent: nat)
    ensures Poll(ok, status, spent) == PollReady(reg, from, MAX_POLLS)
    ensures spent <= MAX_POLLS
    ensures ok ==> status == Status(reg(from + spent - 1))
  {
    var retry := RETRIES;
    var regVal: u32 := 0;
    spent := 0;
    retry := retry - 1;
    while retry != 0
      invariant 0 <= retry <= MAX_POLLS
      invariant spent + retry == MAX_POLLS
      invariant forall k :: from <= k < from + spent ==> !ReadyAt(reg, k)
      decreases retry
    {
      regVal := reg(from + spent);
      spent := spent + 1;
      if Ready(regVal) {
        break;
      }
      retry := retry - 1;
    }
    if retry == 0 {
      ok, status := false, 0;
      PollAllBusy(reg, from, MAX_POLLS);
    } else {
      ok, status := true, Status(regVal);
      PollFirstReady(reg, from, MAX_POLLS, spent - 1);
    }
  }

  /** Polling a register that never shows the ready bit spends every read and
      fails. */
  lemma {:induction false} PollAllBusy(reg: nat -> u32, from: nat, left: nat)
    requires forall k :: from <= k < from + left ==> !ReadyAt(reg, k)
    ensures PollReady(reg, from, left) == Poll(false, 0, left)
    decreases left
  {
    if left > 0 {
      PollAllBusy(reg, from + 1, left - 1);
    }
  }

  /** Polling stops at the first read that shows the ready bit and reports
      that read's status. */
  lemma {:induction false} PollFirstReady(reg: nat -> u32, from: nat, left: nat, i: nat)
    requires i < left
    requires forall k :: from <= k < from + i ==> !ReadyAt(reg, k)
    requires ReadyAt(reg, from + i)
    ensures PollReady(reg, from, left) == Poll(true, Status(reg(from + i)), i + 1)
    decreases i
  {
    if i > 0 {
      assert !ReadyAt(reg, from);
      PollFirstReady(reg, from + 1, left - 1, i - 1);
      var rest := PollReady(reg, from + 1, left - 1);
      assert rest == Poll(true, Status(reg(from + i)), i) by {
        assert from + 1 + (i - 1) == from + i;
      }
      assert PollReady(reg, from, left) == rest.(spent := i + 1);
    }
  }

  /** A command posted in C2PMSG_72: the command number in bits 16-23. */
  function CommandWord(cmd: nat): (w: u32)
    requires cmd < 0x100
  {
    cmd * TWO_16
  }

  /** A command word carries the command in the CMD field and nothing in the
      ready bit, the TMR index or the status. */
  lemma CommandWordFields(cmd: nat)
    requires cmd < 0x100
    ensures (CommandWord(cmd) / TWO_16) % 0x100 == cmd
    ensures Status(CommandWord(cmd)) == 0
    ensures !Ready(CommandWord(cmd))
    ensures (CommandWord(cmd) / 0x100_0000) % 0x10 == 0
  {
  }

  datatype RegWrite = RegWrite(mailbox: Mailbox, value: u32)

  /** The outcome of a mailbox command: its boolean result, the registers it
      wrote, and the number of C2PMSG_72 reads it spent. */
  datatype Command = Command(ok: bool, writes: seq<RegWrite>, spent: nat)

  /** The command succeeds exactly when the mailbox was ready at the first read
      and, within the 49 polls after posting, the first read that shows the
      ready bit carries status 0. */
  ghost predicate CompletesCleanly(reg: nat -> u32, from: nat) {
    && ReadyAt(reg, from)
    && exists k :: from + 1 <= k < from + 1 + MAX_POLLS && ReadyAt(reg, k) && Status(reg(k)) == 0
                   && forall j :: from + 1 <= j < k ==> !ReadyAt(reg, j)
  }

  lemma PollSucceedsIff(reg: nat -> u32, from: nat)
    ensures (PollReady(reg, from, MAX_POLLS).ready && PollReady(reg, from, MAX_POLLS).status == 0) <==>
            exists k :: from <= k < from + MAX_POLLS && ReadyAt(reg, k) && Status(reg(k)) == 0
                        && forall j :: from <= j < k ==> !ReadyAt(reg, j)
  {
    var p := PollReady(reg, from, MAX_POLLS);
    if p.ready && p.status == 0 {
      var k := from + p.spent - 1;
      assert from <= k < from + MAX_POLLS && ReadyAt(reg, k) && Status(reg(k)) == 0;
    }
    if exists k :: from <= k < from + MAX_POLLS && ReadyAt(reg, k) && Status(reg(k)) == 0
                   && forall j :: from <= j < k ==> !ReadyAt(reg, j) {
      var k :| from <= k < from + MAX_POLLS && ReadyAt(reg, k) && Status(reg(k)) == 0
               && forall j :: from <= j < k ==> !ReadyAt(reg, j);
      assert p.ready;
      assert from + p.spent - 1 == k;
    }
  }

  /** The body drtm_launch and drtm_get_cap share: check the mailbox is ready
      (no write otherwise), post the command, wait, and succeed only on a
      zero status. */
  function MailboxCommand(cmd: nat, reg: nat -> u32, from: nat): (c: Command)
    requires cmd < 0x100
    ensures !ReadyAt(reg, from) ==> !c.ok && c.writes == [] && c.spent == 1
    ensures ReadyAt(reg, from) ==> c.writes == [RegWrite(C2pMsg72, cmd * 0x1_0000)]
    ensures c.ok <==> CompletesCleanly(reg, from)
    ensures 1 <= c.spent <= 1 + MAX_POLLS
  {
    if !ReadyAt(reg, from) then Command(false, [], 1)
    else
      var p := PollReady(reg, from + 1, MAX_POLLS);
      PollSucceedsIff(reg, from + 1);
      Command(p.ready && p.status == 0, [RegWrite(C2pMsg72, CommandWord(cmd))], 1 + p.spent)
  }

  /** drtm_launch: command 0x4, posted as 0x40000. */
  function DrtmLaunch(reg: nat -> u32, from: nat): (c: Command)
    ensures ReadyAt(reg, from) ==> c.writes == [RegWrite(C2pMsg72, 0x40000)]
    ensures c.ok <==> CompletesCleanly(reg, from)
  {
    MailboxCommand(DRTM_CMD_LAUNCH, reg, from)
  }

  /** drtm_get_cap: command 0x1, posted as 0x10000. */
  function DrtmGetCap(reg: nat -> u32, from: nat): (c: Command)
    ensures ReadyAt(reg, from) ==> c.writes == [RegWrite(C2pMsg72, 0x10000)]
    ensures c.ok <==> CompletesCleanly(reg, from)
  {
    MailboxCommand(DRTM_CMD_GET_CAPABILITY, reg, from)
  }

  /** drtm_extend_ossl_digest: refuse an image wider than 32 bits or a busy
      mailbox before touching any register; otherwise write the size, the low
      and high halves of the relocation address 0x08000000, and command 0xB,
      then wait as the other commands do. */
  function DrtmExtendOsslDigest(addr: u64, size: u64, reg: nat -> u32, from: nat): (c: Command)
    ensures size > UINT32_MAX ==> c == Command(false, [], 0)
    ensures size <= UINT32_MAX && !ReadyAt(reg, from) ==> c == Command(false, [], 1)
    ensures size <= UINT32_MAX && ReadyAt(reg, from) ==>
              c.writes == [RegWrite(C2pMsg93, size), RegWrite(C2pMsg94, 0x08000000),
                           RegWrite(C2pMsg95, 0), RegWrite(C2pMsg72, 0xB0000)]
    ensures c.ok <==> size <= UINT32_MAX && CompletesCleanly(reg, from)
  {
    if size > UINT32_MAX then Command(false, [], 0)
    else if !ReadyAt(reg, from) then Command(false, [], 1)
    else
      var p := PollReady(reg, from + 1, MAX_POLLS);
      PollSucceedsIff(reg, from + 1);
      Command(p.ready && p.status == 0,
              [RegWrite(C2pMsg93, size),
               RegWrite(C2pMsg94, DRTM_OSSL_RELOC_ADDR % TWO_32),
               RegWrite(C2pMsg95, DRTM_OSSL_RELOC_ADDR / TWO_32),
               RegWrite(C2pMsg72, CommandWord(DRTM_CMD_EXTEND_OSSL_DIGEST))],
              1 + p.spent)
  }
}

=== FILE: results.dfy ===
/** Failure-carrying values shared by every module of the model. */
module Results {

  /** A value that may be absent: the model of a C pointer that may be NULL. */
  datatype Option<+T> = None | Some(value: T)

  /** Either a value or the error that stopped the computation: the model of a
      Python exception or of a C error return. Usable with `:-`. */
  datatype Result<+T, +E> = Ok(value: T) | Err(error: E) {

    predicate IsFailure() {
      Err?
    }

    function PropagateFailure<U>(): Result<U, E>
      requires Err?
    {
      Err(error)
    }

    function Extract(): T
      requires Ok?
    {
      value
    }
  }
}

=== FILE: slrt.dfy ===
/** The Secure Launch Resource Table walker (include/slrt.h).

    The bootloader hands the loader a table `bootloader_data`: a 16-byte
    header whose `size` field bounds the table, followed by entries that each
    start with a `(tag, size)` header. The walker follows the `size` fields
    from entry to entry looking for a tag.

    Memory is modelled as the bytes that start at &bootloader_data, and
    entries are named by their offset from that address (so `end_of_slrt()` is
    the table's `size` field). A read past the modelled bytes is reported as
    `Crashed(Unmapped)` rather than given an invented value. */
module Slrt {
  import opened Results
  import opened Bytes

  const SLR_ENTRY_INVALID: u16 := 0x0000
  const SLR_ENTRY_DL_INFO: u16 := 0x0001
  const SLR_ENTRY_LOG_INFO: u16 := 0x0002
  const SLR_ENTRY_END: u16 := 0xffff

  const SLR_BOOTLOADER_GRUB: u16 := 1
  const SLR_DRTM_TPM12_LOG: u16 := 1
  const SLR_DRTM_TPM20_LOG: u16 := 2

  /** Offsets inside struct slr_table: the `size` field and entries[0]. */
  const TABLE_SIZE_FIELD: nat := 8
  const FIRST_ENTRY: nat := 16

  /** The ways a walk ends without an answer. */
  datatype Crash =
    | NullRead   // the NULL returned by next_entry is dereferenced
    | Loops      // an entry of size 0 sends the walk round forever
    | Unmapped   // a read beyond the modelled memory

  /** The pointer a lookup returns: an entry (by offset), NULL, or no answer. */
  datatype Walk = Found(at: nat) | Null | Crashed(why: Crash)

  /** The search as the header writes it, or with the NULL check it lacks. */
  datatype Variant = AsWritten | Corrected

  /** The fixed part of struct slr_table is always there: bootloader_data is
      a linker symbol of that type. */
  predicate HasTableHeader(mem: seq<byte>) {
    |mem| >= FIRST_ENTRY
  }

  /** end_of_slrt(): the table's address plus its u32 `size` field, whose
      little-endian bytes are bytes 8..12 of the table. */
  function EndOfSlrt(mem: seq<byte>): (r: nat)
    requires HasTableHeader(mem)
  {
    ReadLE(mem, TABLE_SIZE_FIELD, 4)
  }

  /** The table end is a u32 value whose little-endian bytes are bytes 8..12
      of the table. */
  lemma EndOfSlrtField(mem: seq<byte>)
    requires HasTableHeader(mem)
    ensures EndOfSlrt(mem) < TWO_32
    ensures EncodeLE(EndOfSlrt(mem), 4) == mem[TABLE_SIZE_FIELD..TABLE_SIZE_FIELD + 4]
  {
    Pow256Widths();
    EncodeDecode(Slice(mem, TABLE_SIZE_FIELD, 4));
  }

  /** The `tag` of the entry header at offset t. */
  function TagAt(mem: seq<byte>, t: nat): (r: Option<u16>)
    ensures r.Some? <==> t + 2 <= |mem|
  {
    if t + 2 <= |mem| then Pow256Widths(); Some(ReadLE(mem, t, 2)) else None
  }

  /** The `size` of the entry header at offset t. */
  function SizeAt(mem: seq<byte>, t: nat): (r: Option<u16>)
    ensures r.Some? <==> t + 4 <= |mem|
  {
    if t + 4 <= |mem| then Pow256Widths(); Some(ReadLE(mem, t + 2, 2)) else None
  }

  /** next_entry(t): the entry `size` bytes further on, or NULL unless that
      lies strictly before the end of the table. */
  function NextEntry(mem: seq<byte>, t: nat): (r: Walk)
    requires HasTableHeader(mem)
    ensures r.Found? <==> SizeAt(mem, t).Some? && t + SizeAt(mem, t).value < EndOfSlrt(mem)
    ensures r.Found? ==> r.at == t + SizeAt(mem, t).value
    ensures r.Crashed? <==> SizeAt(mem, t).None?
    ensures r.Crashed? ==> r.why == Unmapped
  {
    match SizeAt(mem, t)
    case None => Crashed(Unmapped)
    case Some(size) =>
      var x := t + size;
      if x < EndOfSlrt(mem) then Found(x) else Null
  }

  /** The while loop of next_entry_with_tag, entered at entry t: step to the
      next entry until the END marker, returning the first entry reached that
      carries `tag`. Where next_entry returns NULL the source goes on to read
      the tag through that NULL; the corrected variant answers NULL instead. */
  function Scan(mem: seq<byte>, t: nat, tag: u16, variant: Variant): (r: Walk)
    requires HasTableHeader(mem)
    ensures TagAt(mem, t) == Some(SLR_ENTRY_END) ==> r == Null
    ensures r.Found? ==> TagAt(mem, r.at) == Some(tag) && t <= r.at < EndOfSlrt(mem)
    ensures r.Found? && r.at == t ==> SizeAt(mem, t) == Some(0)
    ensures r == Crashed(NullRead) ==> variant == AsWritten
    decreases if t < EndOfSlrt(mem) then EndOfSlrt(mem) - t else 0
  {
    match TagAt(mem, t)
    case None => Crashed(Unmapped)
    case Some(current) =>
      if current == SLR_ENTRY_END then Null
      else
        match NextEntry(mem, t)
        case Crashed(why) => Crashed(why)
        case Null => if variant == AsWritten then Crashed(NullRead) else Null
        case Found(x) =>
          match TagAt(mem, x)
          case None => Crashed(Unmapped)
          case Some(next) =>
            if next == tag then Found(x)
            else if x == t then Crashed(Loops)
            else Scan(mem, x, tag, variant)
  }

  /** next_entry_with_tag(start, tag): with a NULL start, entries[0] is tested
      before the loop is entered; otherwise the loop starts at `start`. */
  function Search(mem: seq<byte>, start: Option<nat>, tag: u16, variant: Variant): (r: Walk)
    requires HasTableHeader(mem)
    ensures start.None? && TagAt(mem, FIRST_ENTRY) == Some(tag) ==>
              r == (if FIRST_ENTRY < EndOfSlrt(mem) then Found(FIRST_ENTRY) else Null)
    ensures r.Found? ==> TagAt(mem, r.at) == Some(tag) && r.at < EndOfSlrt(mem)
    ensures r.Found? && start.Some? ==> start.value < r.at || SizeAt(mem, r.at) == Some(0)
  {
    match start
    case None =>
      (match TagAt(mem, FIRST_ENTRY)
       case None => Crashed(Unmapped)
       case Some(first) =>
         if first == tag then (if FIRST_ENTRY < EndOfSlrt(mem) then Found(FIRST_ENTRY) else Null)
         else Scan(mem, FIRST_ENTRY, tag, variant))
    case Some(t) => Scan(mem, t, tag, variant)
  }

  /** next_entry_with_tag exactly as include/slrt.h writes it: it answers
      what the corrected lookup answers, except that it reads through NULL
      where the corrected one answers NULL. */
  function NextEntryWithTagAsWritten(mem: seq<byte>, start: Option<nat>, tag: u16): (r: Walk)
    requires HasTableHeader(mem)
    ensures r != Search(mem, start, tag, Corrected) ==>
              r == Crashed(NullRead) && Search(mem, start, tag, Corrected) == Null
  {
    ScanVariantsAgree(mem, if start.None? then FIRST_ENTRY else start.value, tag);
    Search(mem, start, tag, AsWritten)
  }

  /** next_entry_with_tag with the missing NULL check added: the lookup the
      source evidently intends. */
  function NextEntryWithTag(mem: seq<byte>, start: Option<nat>, tag: u16): (r: Walk)
    requires HasTableHeader(mem)
    ensures r != Crashed(NullRead)
  {
    Search(mem, start, tag, Corrected)
  }

  /** One step of the walk from entry t: the next entry, when t is not the END
      marker and the next entry starts after t and inside the table. */
  function Step(mem: seq<byte>, t: nat): (r: Option<nat>)
    requires HasTableHeader(mem)
    ensures r.Some? ==> t < r.value < EndOfSlrt(mem)
  {
    match TagAt(mem, t)
    case None => None
    case Some(current) =>
      if current == SLR_ENTRY_END then None
      else
        match NextEntry(mem, t)
        case Found(x) => if x > t then Some(x) else None
        case _ => None
  }

  /** x is reached from t by one or more steps of the walk. */
  ghost predicate Reaches(mem: seq<byte>, t: nat, x: nat)
    requires HasTableHeader(mem)
    decreases x - t
  {
    match Step(mem, t)
    case None => false
    case Some(y) => y == x || (y < x && Reaches(mem, y, x))
  }

  lemma {:induction false} ReachesForward(mem: seq<byte>, t: nat, x: nat)
    requires HasTableHeader(mem)
    requires Reaches(mem, t, x)
    ensures t < x
    decreases x - t
  {
    var y := Step(mem, t).value;
    if y != x {
      ReachesForward(mem, y, x);
    }
  }

  lemma ReachesForwardAll(mem: seq<byte>)
    requires HasTableHeader(mem)
    ensures forall a, b :: Reaches(mem, a, b) ==> a < b
  {
    forall a, b | Reaches(mem, a, b)
      ensures a < b
    {
      ReachesForward(mem, a, b);
    }
  }

  /** A successful scan answers the first entry after t, along the chain of
      entries, that carries the tag: no entry strictly between t and the
      answer carries it. (The one exception is an entry of size 0 carrying
      the tag, which the loop returns as itself.) */
  lemma {:induction false} ScanFindsFirst(mem: seq<byte>, t: nat, tag: u16, variant: Variant)
    requires HasTableHeader(mem)
    requires Scan(mem, t, tag, variant).Found?
    ensures var x := Scan(mem, t, tag, variant).at;
            || (x == t && SizeAt(mem, t) == Some(0))
            || (&& Reaches(mem, t, x)
                && forall y :: Reaches(mem, t, y) && Reaches(mem, y, x) ==> TagAt(mem, y) != Some(tag))
    decreases if t < EndOfSlrt(mem) then EndOfSlrt(mem) - t else 0
  {
    var x := Scan(mem, t, tag, variant).at;
    if x != t {
      var n := NextEntry(mem, t).at;
      assert Step(mem, t) == Some(n);
      ReachesForwardAll(mem);
      if n != x {
        ScanFindsFirst(mem, n, tag, variant);
      }
    }
  }

  /** A scan that answers NULL has passed every entry the walk can reach from
      t: none of them carries the tag. This is what makes the second lookup
      in the event-log setup a uniqueness check. */
  lemma {:induction false} ScanNullMeansAbsent(mem: seq<byte>, t: nat, tag: u16, variant: Variant, y: nat)
    requires HasTableHeader(mem)
    requires Scan(mem, t, tag, variant) == Null
    requires Reaches(mem, t, y)
    ensures TagAt(mem, y) != Some(tag)
    decreases if t < EndOfSlrt(mem) then EndOfSlrt(mem) - t else 0
  {
    var n := Step(mem, t).value;
    if y != n {
      ScanNullMeansAbsent(mem, n, tag, variant, y);
    }
  }

  /** The source's walker and the corrected one give the same answer, except
      where the source reads through NULL and the corrected one answers NULL. */
  lemma {:induction false} ScanVariantsAgree(mem: seq<byte>, t: nat, tag: u16)
    requires HasTableHeader(mem)
    ensures || Scan(mem, t, tag, AsWritten) == Scan(mem, t, tag, Corrected)
            || (Scan(mem, t, tag, AsWritten) == Crashed(NullRead) && Scan(mem, t, tag, Corrected) == Null)
    decreases if t < EndOfSlrt(mem) then EndOfSlrt(mem) - t else 0
  {
    match NextEntry(mem, t)
    case Found(x) =>
      if x != t {
        ScanVariantsAgree(mem, x, tag);
      }
    case _ =>
  }

  lemma SearchVariantsAgree(mem: seq<byte>, start: Option<nat>, tag: u16)
    requires HasTableHeader(mem)
    ensures || NextEntryWithTagAsWritten(mem, start, tag) == NextEntryWithTag(mem, start, tag)
            || (&& NextEntryWithTagAsWritten(mem, start, tag) == Crashed(NullRead)
                && NextEntryWithTag(mem, start, tag) == Null)
  {
    match start
    case None => ScanVariantsAgree(mem, FIRST_ENTRY, tag);
    case Some(t) => ScanVariantsAgree(mem, t, tag);
  }

  /** Whenever the first entry is neither the one sought nor END and the
      step after it leaves the table, the source reads the tag of the NULL
      pointer next_entry returned; the corrected walker answers NULL. */
  lemma UnterminatedReadsNull(mem: seq<byte>, tag: u16)
    requires HasTableHeader(mem)
    requires TagAt(mem, FIRST_ENTRY).Some? && TagAt(mem, FIRST_ENTRY).value != tag
    requires TagAt(mem, FIRST_ENTRY).value != SLR_ENTRY_END
    requires NextEntry(mem, FIRST_ENTRY) == Null
    ensures NextEntryWithTagAsWritten(mem, None, tag) == Crashed(NullRead)
    ensures NextEntryWithTag(mem, None, tag) == Null
  {
  }

  /** A table with one DL_INFO entry and no END marker: looking for LOG_INFO
      runs off the end of the table, and the source then reads the tag of the
      NULL pointer next_entry returned. */
  lemma AsWrittenReadsNull()
    ensures var mem := [0, 0, 0, 0,  0, 0,  0, 0,  20, 0, 0, 0,  0, 0, 0, 0,  1, 0,  4, 0];
            && NextEntryWithTagAsWritten(mem, None, SLR_ENTRY_LOG_INFO) == Crashed(NullRead)
            && NextEntryWithTag(mem, None, SLR_ENTRY_LOG_INFO) == Null
  {
    var mem: seq<byte> := [0, 0, 0, 0,  0, 0,  0, 0,  20, 0, 0, 0,  0, 0, 0, 0,  1, 0,  4, 0];
    assert EndOfSlrt(mem) == 20 by {
      assert Slice(mem, TABLE_SIZE_FIELD, 4) == [20, 0, 0, 0];
      Decode4([20, 0, 0, 0]);
    }
    assert TagAt(mem, 16) == Some(SLR_ENTRY_DL_INFO) by {
      assert Slice(mem, 16, 2) == [1, 0];
      Decode2([1, 0]);
    }
    assert SizeAt(mem, 16) == Some(4) by {
      assert Slice(mem, 18, 2) == [4, 0];
      Decode2([4, 0]);
    }
    UnterminatedReadsNull(mem, SLR_ENTRY_LOG_INFO);
  }
}
